=== FILE: README.md ===
# PlaySafe Unity SDK: voice sampling, WAV encoding and moderation dispatch

The PlaySafe SDK runs inside a Unity game client. It records the player's
microphone on a duty cycle, encodes each recorded clip as a 16-bit PCM WAV
file, skips clips that are silent, and uploads the rest to a voice-moderation
service. The first action the service recommends is handed to the game. The
intermission between recordings comes from a remote sampling rate. Focus and
pause events open and close the player's presence session.

This Dafny project models the four C# components that carry that behaviour:

- `Runtime/Core/AudioRecorder.cs` (`PlaySafeAudioRecorder`) becomes the class `Recorder.AudioRecorder`:
  - the encoder `AudioClipToWav`/`WriteWavHeader`, over a `Streams.MemoryStream`;
  - the recording controller `ShouldRecord`/`StartRecording`/`StopRecording`/`ToggleRecording`.
- `Runtime/DLVoiceAIModeration.cs` becomes `Moderation.VoiceModeration`:
  - `Initialize`/`Setup` and `Update`;
  - the upload gate of `SendAudioClipForAnalysisCoroutine`;
  - `ProcessModerationResponse` and `ProcessRemoteConfig`;
  - the focus and pause handlers.

  Its recording fields and encoder repeat `PlaySafeAudioRecorder` line for line. The component therefore owns one `AudioRecorder` and drives it.
- `Runtime/PlaySafe.cs` becomes `PlaySafeTick.PlaySafe`, the bare per-frame tick.
- `Runtime/PlaySafeManager.cs` becomes `Manager.PlaySafeManager`, with the one-shot initialisation and the session dispatch. The decisions it shares with `DLVoiceAIModeration` live in module `Lifecycle`.

How the model is built:

- The stateful code is imperative Dafny:
  - the sample conversion loop writes a byte array;
  - the header writer issues thirteen `Write` calls on the stream;
  - the components are classes whose methods update their fields.
- Each method is proved against pure functions:
  - `WavFormat.EncodeWav` is the byte string of the file, with an independent reader `DecodeWav` as its inverse;
  - `Recorder.AfterTick`, `AfterStart` and `AfterStop` are the recorder's transitions;
  - `Moderation.IntermissionFor`, `SelectAction` and `AnalysisUploads` cover the remote config, the action selection and the upload gate.
- Time is an explicit `now`. The `Stopwatch` is the value `Idle | Running(since)`.
- The engine supplies the inputs of a tick as a `TickInput`:
  - microphone permission;
  - the device count;
  - the answer of the game's `CanRecord` delegate;
  - the clip `Microphone.Start` returns.

Two behaviours of the code shape the model:

- **The intermission is counted from the start of the previous recording, not from the end of the last one.** The stopwatch restarts only when a recording starts, and in `Setup`.
  - Automatic starts are more than the intermission apart, start to start (`Recorder.RunTicksSpacing`).
  - No gap after the end of a window is enforced. The idle time after a window is the intermission less the 10 s window: about 50 s with the default 60 s intermission (`Recorder.IdleGapIsIntermissionLessWindow`), and none when the intermission is 10 s or less, where a new recording can begin one frame after the previous one stops (`Recorder.IntermissionCountsFromStart`).
- **None of these files has code for the following, so the model has none either:**
  - pausing and resuming a window;
  - a pause budget;
  - an append-style capture buffer;
  - uploads gated on focus;
  - applying the remote `AudioSilenceThreshold`.

  `ProcessRemoteConfig` reads only `SamplingRate`.

## Model

| member | source | states |
|---|---|---|
| WavFormat.Wrap16 | Runtime/Core/AudioRecorder.cs:89 | the `(short)` cast gives the 16-bit value congruent to the input mod 2^16, which is the input itself when it fits |
| WavFormat.Wrap32 | Runtime/Core/AudioRecorder.cs:82 | the `(int)` cast gives the 32-bit value congruent to the input mod 2^32, which is the input itself when it fits |
| WavFormat.Int16Bytes | Runtime/Core/AudioRecorder.cs:88-89 | `BitConverter.GetBytes((short)v)` is two bytes |
| WavFormat.Int32Bytes | Runtime/Core/AudioRecorder.cs:87-91 | `BitConverter.GetBytes(int)` is four bytes |
| WavFormat.LowByte | Runtime/Core/AudioRecorder.cs:62 | `(byte)(v & 0xFF)` is a byte congruent to the value mod 2^8 |
| WavFormat.HighByte | Runtime/Core/AudioRecorder.cs:63 | `(byte)((v >> 8) & 0xFF)`, with the low byte, rebuilds the value mod 2^16 |
| WavFormat.Int16RoundTrip | Runtime/Core/AudioRecorder.cs:60-63 | the little-endian bytes of a 16-bit value read back as the same signed value, and as the value mod 2^16 unsigned |
| WavFormat.Int32RoundTrip | Runtime/Core/AudioRecorder.cs:82 | the four little-endian bytes of a 32-bit value read back as that value |
| WavFormat.Trunc | Runtime/Core/AudioRecorder.cs:60 | the float-to-short cast truncates toward zero: never larger in magnitude, less than one away, same sign |
| WavFormat.Quantize | Runtime/Core/AudioRecorder.cs:60 | a sample in [-1, 1] becomes an integer in [-32767, 32767] |
| WavFormat.QuantizeError | Runtime/Core/AudioRecorder.cs:50-60 | scaled back by 32767, a quantised sample is within one step of the original |
| WavFormat.PcmBytesLength | Runtime/Core/AudioRecorder.cs:48 | the payload holds two bytes per sample |
| WavFormat.PcmBytesAt | Runtime/Core/AudioRecorder.cs:53-64 | sample i is the low byte at 2i and the high byte at 2i+1, and that pair reads back as the quantised sample |
| WavFormat.PcmBytesEach | Runtime/Core/AudioRecorder.cs:62-63 | every payload byte is the low or high byte of its sample, by parity |
| WavFormat.SilentIffPeakWithin | Runtime/Core/AudioRecorder.cs:49-58 | for a non-negative threshold, the clip is silent iff its peak magnitude does not exceed the threshold; a sample equal to the threshold stays silent, and an empty clip is silent |
| WavFormat.WavHeader | Runtime/Core/AudioRecorder.cs:78-98 | the header is exactly 44 bytes |
| WavFormat.HeaderSlices | Runtime/Core/AudioRecorder.cs:80-97 | each of the thirteen header fields occupies its canonical byte range |
| WavFormat.HeaderFieldsAt | Runtime/Core/AudioRecorder.cs:78-98 | the header fields, read back: tags "RIFF", "WAVE", "fmt ", "data"; fmt size 16; format 1; channels; rate; byte rate rate·channels·2; block align channels·2; 16 bits; RIFF and data sizes. Each field is as the source's casts leave it |
| WavFormat.EncodeWav | Runtime/Core/AudioRecorder.cs:29-98 | the file `AudioClipToWav` returns: 44 header bytes followed by exactly the PCM payload |
| WavFormat.EncodeWavLength | Runtime/Core/AudioRecorder.cs:38-82 | the file is 44 + 2·samples·channels bytes, and its RIFF size field is the length less 8, i.e. 36 + the data length |
| WavFormat.EncodeWavPayload | Runtime/Core/AudioRecorder.cs:66-71 | after the 44 header bytes comes exactly the PCM payload |
| WavFormat.EncodeWavHeader | Runtime/DLVoiceAIModeration.cs:299-319 | every header field of any encoded clip, with 16- and 32-bit wrap-around where the clip's values do not fit |
| WavFormat.EncodeWavSampleAt | Runtime/DLVoiceAIModeration.cs:272-283 | sample i sits at bytes 44+2i (low) and 45+2i (high), and reads back as trunc(sample·32767) |
| WavFormat.FieldsFit | Runtime/DLVoiceAIModeration.cs:310-313 | a channel count, rate and byte rate that fit their slots pass through the casts unchanged |
| WavFormat.EncodeWavHeaderExact | Runtime/DLVoiceAIModeration.cs:302-318 | for in-range fields, the header holds the clip's channel count, rate, byte rate and block align exactly, and the data-length field equals the length less 44 |
| WavFormat.DecodePcm | Runtime/DLVoiceAIModeration.cs:279-282 | the payload reader yields one 16-bit sample per two bytes |
| WavFormat.PcmRoundTrip | Runtime/DLVoiceAIModeration.cs:279-282 | reading the payload back gives exactly the quantised samples |
| WavFormat.DecodeWav | Runtime/DLVoiceAIModeration.cs:299-319 | an independent reader of the header layout the writer produces: whatever it accepts has the 44-byte header and yields one sample per two bytes after it |
| WavFormat.EncodeDecodeRoundTrip | Runtime/DLVoiceAIModeration.cs:248-295 | decoding an encoded clip returns its channel count, rate and quantised samples |
| Streams.Zeros | Runtime/Core/AudioRecorder.cs:40 | the reserved header is 44 zero bytes |
| Streams.Overwrite | Runtime/Core/AudioRecorder.cs:67 | a stream write replaces the bytes under the cursor, extends the buffer past its end, zero-fills any gap before the cursor, and keeps the bytes before and after |
| Streams.MemoryStream.SetLength | Runtime/Core/AudioRecorder.cs:35 | truncates or zero-extends the buffer, and keeps the cursor within it |
| Streams.MemoryStream.Write | Runtime/Core/AudioRecorder.cs:40 | writes at the cursor and advances it by the byte count |
| Streams.MemoryStream.WriteOver | Runtime/Core/AudioRecorder.cs:81-97 | each header write extends the rewritten prefix and leaves the rest of the reserved bytes |
| Streams.OverwritePrefix | Runtime/Core/AudioRecorder.cs:81-97 | overwriting right after a rewritten prefix extends that prefix |
| Recorder.ConvertSamples | Runtime/Core/AudioRecorder.cs:48-64 | the conversion loop produces exactly the PCM payload, and its flag is true iff no sample's magnitude strictly exceeds the threshold |
| Recorder.AudioRecorder.AudioClipToWav | Runtime/Core/AudioRecorder.cs:29-76 | a null clip fails with ArgumentNull and leaves the stream untouched; otherwise the result is the WAV file `EncodeWav(clip)` with the silence flag. The stream is reset first, so earlier calls never leak into the output |
| Recorder.AudioRecorder.WriteWavHeader | Runtime/Core/AudioRecorder.cs:78-98 | over a stream at position 0, the first 44 bytes become the header, the RIFF size is taken from the stream length less 8, and the rest is kept |
| Recorder.ShouldRecordRule | Runtime/Core/AudioRecorder.cs:118-126 | true iff not recording and either the editor debug override is on, or the elapsed time strictly exceeds the intermission and `CanRecord()` holds; never true while recording (also Runtime/DLVoiceAIModeration.cs:176-184) |
| Recorder.TickDecision | Runtime/PlaySafe.cs:3-21 | `Update`: a start iff initialised, permitted and `ShouldRecord()`; a stop iff initialised, permitted, not `ShouldRecord()`, recording and elapsed strictly over 10 s; never both |
| Recorder.AfterStart | Runtime/DLVoiceAIModeration.cs:201-211 | without a device nothing changes; otherwise recording is on, the microphone clip is kept and the stopwatch reads zero at `now`; the analysis log and the intermission stay, and the stopwatch invariant is kept |
| Recorder.AfterStop | Runtime/DLVoiceAIModeration.cs:213-222 | when idle nothing changes; otherwise recording is off and exactly the recorded clip is appended to the analyses; the stopwatch, restart log and intermission stay |
| Recorder.Decide | Runtime/DLVoiceAIModeration.cs:115-133 | a tick acts only when initialised and permitted; it starts only when idle and, without the debug override, only past the intermission with `CanRecord()`; it stops iff initialised, permitted and a recording has run strictly over 10 s |
| Recorder.AfterTick | Runtime/PlaySafe.cs:3-21 | a tick never changes the intermission, appends at most one analysis and keeps the earlier ones, and keeps the stopwatch invariant |
| Recorder.AudioRecorder.ShouldRecord | Runtime/Core/AudioRecorder.cs:118-126 | never true while recording; with the debug override always true when idle; otherwise true only past the intermission with `CanRecord()` |
| Recorder.AutoStartSpacing | Runtime/DLVoiceAIModeration.cs:125-128 | without the debug override, a tick start needs `CanRecord()`, no running recording, and more than the intermission since the latest stopwatch restart; the start is logged as the next restart |
| Recorder.TickConsistent | Runtime/DLVoiceAIModeration.cs:115-133 | a tick keeps the stopwatch on the latest restart and the intermission unchanged, and only appends to the restart log |
| Recorder.RunTicksSpacing | Runtime/DLVoiceAIModeration.cs:115-133 | over any run of ticks without the debug override, each recording started in the run began more than the intermission after the restart before it |
| Recorder.StopAfterWindow | Runtime/DLVoiceAIModeration.cs:129-132 | a permitted tick stops a recording that has run strictly longer than 10 s, and dispatches its clip to exactly one analysis |
| Recorder.TickGated | Runtime/PlaySafe.cs:7-11 | uninitialised or without microphone permission, a tick changes nothing |
| Recorder.CanRecordUnused | Runtime/DLVoiceAIModeration.cs:181-183 | while recording, or before the intermission is over, the answer of `CanRecord()` cannot affect the tick |
| Recorder.IdleGapIsIntermissionLessWindow | Runtime/DLVoiceAIModeration.cs:109-133 | with the default 60 s intermission, a window started at 0 s and stopped at 10.5 s is followed by no start at 10.6 s or 60 s, and by one at 60.5 s |
| Recorder.IntermissionCountsFromStart | Runtime/DLVoiceAIModeration.cs:201-222 | with a 10 s intermission, a window started at 0 s and stopped at 10.5 s is followed by a new one at 10.6 s |
| Recorder.AudioRecorder.constructor | Runtime/Core/AudioRecorder.cs:15-27 | a new recorder is idle, its stopwatch has not started, and the intermission is 60 s |
| Recorder.AudioRecorder.StartRecording | Runtime/Core/AudioRecorder.cs:143-153 | without a device, nothing changes; otherwise it sets recording, keeps the microphone clip, and restarts the stopwatch at `now` |
| Recorder.AudioRecorder.StopRecording | Runtime/Core/AudioRecorder.cs:155-164 | when idle, nothing changes; otherwise it clears recording and dispatches exactly one analysis of the recorded clip |
| Recorder.AudioRecorder.ToggleRecording | Runtime/Core/AudioRecorder.cs:131-141 | stops a running recording, or else attempts a start; the flag flips unless a start finds no device |
| Recorder.AudioRecorder.RestartStopwatch | Runtime/DLVoiceAIModeration.cs:77 | `_lastRecording.Restart()`: the elapsed time reads zero at `now` |
| Lifecycle.TelemetrySource.Current | Runtime/PlaySafeManager.cs:177 | telemetry is available iff the delegate is set and returns non-null, and it is what the delegate returns |
| Lifecycle.InitCheck | Runtime/PlaySafeManager.cs:116-139 | the guard rejects first a missing `CanRecord`, then a missing `GetTelemetry`, then a repeated call; it proceeds only on a first call with both set |
| Lifecycle.InitAtMostOnce | Runtime/PlaySafeManager.cs:131-135 | once initialised, no call proceeds again |
| Lifecycle.FocusDispatch | Runtime/PlaySafeManager.cs:175-190 | without telemetry, nothing is dispatched; otherwise losing focus ends and gaining focus starts the session of the telemetry's user |
| Lifecycle.PauseDispatch | Runtime/PlaySafeManager.cs:192-206 | without telemetry, nothing is dispatched; otherwise pausing ends and resuming starts that user's session |
| Lifecycle.PauseMirrorsFocus | Runtime/PlaySafeManager.cs:175-206 | pausing is handled as losing focus, and resuming as regaining it |
| Lifecycle.Dispatched | Runtime/PlaySafeManager.cs:184-188 | an event appends at most one call and keeps the earlier ones |
| Manager.PlaySafeManager.Initialize | Runtime/PlaySafeManager.cs:116-139 | `Instance` is set before any check. A call the guard rejects changes nothing else. A call it lets through sets the initialised flag, starts one config fetch and restarts the stopwatch, and changes no other field. `Setup` runs at most once over any call sequence |
| Manager.PlaySafeManager.Setup | Runtime/PlaySafeManager.cs:141-149 | starts one config fetch and restarts the stopwatch, so the elapsed time reads zero right after initialisation. Every other field stays as it was. |
| Manager.PlaySafeManager.OnApplicationFocus | Runtime/PlaySafeManager.cs:175-190 | appends exactly the focus dispatch to the session calls. Every other field stays as it was. |
| Manager.PlaySafeManager.OnApplicationPause | Runtime/PlaySafeManager.cs:192-206 | appends exactly the pause dispatch to the session calls. Every other field stays as it was. |
| Manager.PlaySafeManager.Awake | Runtime/PlaySafeManager.cs:63-80 | registers the manager as `Instance` |
| PlaySafeTick.PlaySafe.Update | Runtime/PlaySafe.cs:3-21 | the tick moves the recording state exactly as `AfterTick`, and leaves it untouched when uninitialised or not permitted |
| Moderation.Clamp01 | Runtime/DLVoiceAIModeration.cs:574 | the sampling rate is clamped into [0, 1] |
| Moderation.IntermissionFor | Runtime/DLVoiceAIModeration.cs:574-577 | the intermission is never negative and always fits an `int`; a clamped rate of 10^-6 or less gives `int.MaxValue` |
| Moderation.IntermissionDutyCycle | Runtime/DLVoiceAIModeration.cs:575-576 | for a rate above 10^-6, the intermission r is the largest whole number of seconds with 10/(10+r) ≥ rate |
| Moderation.IntermissionAntitone | Runtime/DLVoiceAIModeration.cs:574-577 | a lower sampling rate never gives a shorter intermission |
| Moderation.IntermissionExamples | Runtime/DLVoiceAIModeration.cs:574-577 | rate 1 gives 0, 0.5 gives 10, 0.1 gives 90, 0 or below gives `int.MaxValue`, and above 1 is treated as 1 |
| Moderation.NextIntermission | Runtime/DLVoiceAIModeration.cs:566-589 | an unparsable reply, a failed reply, or one without data keeps the current intermission; otherwise the value is the one the sampling rate asks for |
| Moderation.FailedFetchKeepsValue | Runtime/DLVoiceAIModeration.cs:579-588 | a failed fetch after a successful one leaves the successful value |
| Moderation.SelectAction | Runtime/DLVoiceAIModeration.cs:377-400 | an action is forwarded iff the reply parsed, is `Ok`, has data and a recommendation with `HasViolation`, and has a non-empty action list; that action is `Actions[0]` |
| Moderation.OnlyFirstActionCounts | Runtime/DLVoiceAIModeration.cs:385-387 | actions after the first never change what is forwarded |
| Moderation.AnalysisUploads | Runtime/DLVoiceAIModeration.cs:337-356 | at most one upload per clip, and one exactly when the clip is non-null, not silent, and telemetry is available |
| Moderation.UploadIsLoudWav | Runtime/DLVoiceAIModeration.cs:337-356 | every upload decodes to the clip's format and samples, has a peak above the silence threshold, and carries the telemetry's user and room |
| Moderation.VoiceModeration.constructor | Runtime/DLVoiceAIModeration.cs:23-109 | a new component is uninitialised, has no delegates, and its recorder is idle with a 60 s intermission |
| Moderation.VoiceModeration.Initialize | Runtime/DLVoiceAIModeration.cs:45-68 | `Instance` is set first. Only a call the guard lets through initialises, fetches the config once and restarts the recorder's stopwatch; the delegates, the logs and the rest of the recorder stay. A rejected call changes nothing else. `Setup` runs at most once |
| Moderation.VoiceModeration.Setup | Runtime/DLVoiceAIModeration.cs:70-78 | starts one config fetch and restarts the stopwatch at `now`. Every other field stays as it was. |
| Moderation.VoiceModeration.Update | Runtime/DLVoiceAIModeration.cs:115-133 | the recorder moves exactly as `AfterTick`. When the tick stops a recording, exactly that clip's analysis uploads are added. Only the recording state, the upload log and the reused stream change |
| Moderation.VoiceModeration.StopRecording | Runtime/DLVoiceAIModeration.cs:213-222 | when recording, it stops and sends the recorded clip for analysis; when idle, it does neither. Only the recording flag, the analysis log, the upload log and the reused stream change |
| Moderation.VoiceModeration.ToggleRecording | Runtime/DLVoiceAIModeration.cs:189-199 | stops and analyses a running recording, or else attempts a start. Only the recording state, the upload log and the reused stream change |
| Moderation.VoiceModeration.SendAudioClipForAnalysis | Runtime/DLVoiceAIModeration.cs:337-356 | appends exactly the uploads `AnalysisUploads` allows: none for a null or silent clip or for missing telemetry. Only the upload log and the reused stream change |
| Moderation.VoiceModeration.ProcessModerationResponse | Runtime/DLVoiceAIModeration.cs:377-400 | `OnActionEvent`, when set, receives the selected action and nothing else; at most one action per reply. Every other field stays as it was. |
| Moderation.VoiceModeration.ProcessRemoteConfig | Runtime/DLVoiceAIModeration.cs:566-589 | only the intermission changes, to `NextIntermission`; the silence threshold is not touched |
| Moderation.VoiceModeration.OnApplicationFocus | Runtime/DLVoiceAIModeration.cs:438-453 | appends exactly the focus dispatch to the session calls. Every other field stays as it was. |
| Moderation.VoiceModeration.OnApplicationPause | Runtime/DLVoiceAIModeration.cs:455-469 | appends exactly the pause dispatch to the session calls. Every other field stays as it was. |

## Left out

- Recorder.AudioRecorder.AudioClipToWav requires every sample to lie in [-1, 1]: C# leaves the float-to-short cast unspecified outside that range.
- Recorder.AudioRecorder.AudioClipToWav requires 44 + 2·samples·channels to fit an `int`: the `int` overflow of `sampleCount * sizeof(short)` for larger clips is not modelled.
- Recorder.AudioRecorder.StartRecording requires the clip `Microphone.Start` returns to meet the encoder's conditions: samples in [-1, 1] and a size that fits an `int`. The source accepts any clip there. The recorder's invariant carries the condition so that the clip later reaches `AudioClipToWav` within that method's precondition.
- Recorder.AudioRecorder.ToggleRecording requires the clip `Microphone.Start` returns to meet the encoder's conditions: samples in [-1, 1] and a size that fits an `int`. The source accepts any clip there. The recorder's invariant carries the condition so that the clip later reaches `AudioClipToWav` within that method's precondition.
- Moderation.VoiceModeration.Update requires the clip `Microphone.Start` returns to meet the encoder's conditions: samples in [-1, 1] and a size that fits an `int`. The source accepts any clip there. The recorder's invariant carries the condition so that the clip later reaches `AudioClipToWav` within that method's precondition.
- Moderation.VoiceModeration.ToggleRecording requires the clip `Microphone.Start` returns to meet the encoder's conditions: samples in [-1, 1] and a size that fits an `int`. The source accepts any clip there. The recorder's invariant carries the condition so that the clip later reaches `AudioClipToWav` within that method's precondition.
- PlaySafeTick.PlaySafe.Update requires the clip `Microphone.Start` returns to meet the encoder's conditions: samples in [-1, 1] and a size that fits an `int`. The source accepts any clip there. The recorder's invariant carries the condition so that the clip later reaches `AudioClipToWav` within that method's precondition.
- PlaySafeTick.PlaySafe.Update is an interpretation of Runtime/PlaySafe.cs, which declares none of the members its `Update` uses:
  - `_isInitialized` is a field of `PlaySafe` itself, set by its constructor;
  - `HasMicrophonePermission()` is the tick input `hasPermission`;
  - `_isRecording`, `_lastRecording`, `ShouldRecord`, `StartRecording`, `StopRecording` and `RecordingDurationSeconds` come from an `AudioRecorder`, which declares members of those names in Runtime/Core/AudioRecorder.cs;
  - `UpdateDebugInfo` is left out, as everywhere.
- WavFormat.Quantize: samples and `32767f` are reals rather than IEEE single-precision floats, so float rounding before the cast is not modelled.
- `Mathf.Abs` and `Mathf.Clamp` are likewise taken over reals.
- Moderation.IntermissionFor: the division is exact, and the `0.000001f` literal is the exact real 10^-6. Single-precision rounding near the floor is not modelled.
- Moderation.AnalysisUploads records the multipart form as an `Upload` value. The HTTP request itself, `SendFormCoroutine`, the bearer header and every other endpoint are not modelled: report, sessions, config fetch, polls. These are network I/O.
- Server replies arrive already parsed. `None` stands for a reply that `JsonConvert` could not turn into an object, since the exception is caught.
- Unity coroutines are not scheduled. The part that runs synchronously inside `StopRecording` is modelled in line: encoding, the silence check and posting the form. A reply is a later, separate call.
- `Microphone.Start`, the device list and the permission query become tick inputs.
- Stopping the microphone device, `Microphone.End(null)` (Runtime/Core/AudioRecorder.cs:160, Runtime/DLVoiceAIModeration.cs:218), is not modelled: it returns nothing, and the model drops the call. The clip a recording starts with is taken to hold, when the recording stops, the samples `GetData` returns.
- `GetTelemetry` is taken to return the same value on each of its calls within one event.
- Logging is not modelled, including the "No microphone found" message in `Setup`.
- `UpdateDebugInfo`, which mirrors state into inspector fields, is not modelled.
- `_ToggleRecording` is identical to `ToggleRecording` and is modelled once.
- Runtime/Core/AudioRecorder.cs uses four members it does not declare: `silenceThreshold`, `debugEnableRecord`, `CanRecord` and `SendAudioClipForAnalysisCoroutine`.
  - The first two are fields of `AudioRecorder`.
  - `CanRecord` is a tick input.
  - A dispatched analysis is logged in `pendingAnalyses`.
- Manager.PlaySafeManager.Awake models only the assignment of `Instance`. Constructing the four service clients and the call `RemoteConfig.ProcessRemoteConfig()` are left out. Those clients live in Runtime/Moderation, Runtime/Player, Runtime/RemoteConfig and Runtime/Sensei, which are not part of this model.
- `PlaySafeManager.Update` only logs and is not modelled.
- Runtime/PlaySafeManager.cs uses members it does not declare, and declares one twice:
  - `GetMicrophoneDeviceCount` (lines 143 and 164) feeds only the log in `Setup` and the debug mirror, so it is left out.
  - `GetProductAIConfig` (line 147) is modelled only as the counter `configRequests` of fetches started.
  - `StartSession` and `EndSession` (lines 184, 188, 200 and 204) are represented by the `SessionCall` values appended to `sessionCalls`; the requests they would send are not modelled.
  - `HasMicrophonePermission` and `ShouldRecord` (lines 161 and 163) are called only inside `UpdateDebugInfo`, which is left out.
  - `Instance` is declared at lines 27 and 94; the model has one `Instance`, the `Singleton` passed to `Awake` and `Initialize`.
- `MemoryStream` is reduced to the members the encoder uses. Capacity growth and I/O exceptions are not modelled.

=== FILE: lifecycle.dfy ===
/**
 * The two decisions `PlaySafeManager` and `DLVoiceAIModeration` share
 * word for word: the one-shot initialisation guard of `Initialize`, and the
 * mapping of application focus and pause events to presence-session calls.
 *
 * `GetTelemetry` is a delegate that may be unset, or set and return null;
 * the model takes it to answer the same on every call within one event.
 */
module Lifecycle {
  import opened Wrappers

  /** The player data the telemetry delegate returns. */
  datatype Telemetry = Telemetry(userId: string, roomId: string)

  /** The `GetTelemetry` delegate: unset, or set and returning a value or null. */
  datatype TelemetrySource = Unset | Provides(result: Option<Telemetry>)
  {
    /** The telemetry an event sees: none when the delegate is unset or returns null. */
    function Current(): (r: Option<Telemetry>)
      ensures r.Some? <==> Provides? && result.Some?
      ensures Provides? ==> r == result
    {
      if Unset? then None else result
    }
  }

  /** How `Initialize` ends: rejected for one of three reasons, in the order
      the source checks them, or proceeding to `Setup`. */
  datatype InitOutcome = MissingCanRecord | MissingGetTelemetry | AlreadyInitialized | Proceed

  /** The guard of `Initialize`.  A missing `CanRecord` is reported first,
      then a missing `GetTelemetry`, then a repeated call; only a first call
      with both delegates set proceeds. */
  function InitCheck(hasCanRecord: bool, hasGetTelemetry: bool, initialized: bool): (r: InitOutcome)
    ensures r == Proceed <==> hasCanRecord && hasGetTelemetry && !initialized
    ensures r == MissingCanRecord <==> !hasCanRecord
    ensures r == MissingGetTelemetry <==> hasCanRecord && !hasGetTelemetry
    ensures r == AlreadyInitialized <==> hasCanRecord && hasGetTelemetry && initialized
  {
    if !hasCanRecord then MissingCanRecord
    else if !hasGetTelemetry then MissingGetTelemetry
    else if initialized then AlreadyInitialized
    else Proceed
  }

  /** Once initialised, no further `Initialize` proceeds, whatever the delegates. */
  lemma InitAtMostOnce(hasCanRecord: bool, hasGetTelemetry: bool)
    ensures InitCheck(hasCanRecord, hasGetTelemetry, true) != Proceed
  {
  }

  /** The session coroutine an event starts. */
  datatype SessionCall = StartSession(userId: string) | EndSession(userId: string)

  /** `OnApplicationFocus`: nothing without telemetry; losing focus ends the
      player's session, gaining it starts one. */
  function FocusDispatch(telemetry: TelemetrySource, hasFocus: bool): (r: Option<SessionCall>)
    ensures r.None? <==> telemetry.Current().None?
    ensures r.Some? ==> r.value.userId == telemetry.Current().value.userId
    ensures r.Some? ==> (r.value.StartSession? <==> hasFocus)
  {
    match telemetry.Current()
    case None => None
    case Some(t) => if !hasFocus then Some(EndSession(t.userId)) else Some(StartSession(t.userId))
  }

  /** `OnApplicationPause`: nothing without telemetry; pausing ends the
      player's session, resuming starts one. */
  function PauseDispatch(telemetry: TelemetrySource, isPaused: bool): (r: Option<SessionCall>)
    ensures r.None? <==> telemetry.Current().None?
    ensures r.Some? ==> r.value.userId == telemetry.Current().value.userId
    ensures r.Some? ==> (r.value.EndSession? <==> isPaused)
  {
    match telemetry.Current()
    case None => None
    case Some(t) => if isPaused then Some(EndSession(t.userId)) else Some(StartSession(t.userId))
  }

  /** Pausing behaves as losing focus, resuming as regaining it. */
  lemma PauseMirrorsFocus(telemetry: TelemetrySource, isPaused: bool)
    ensures PauseDispatch(telemetry, isPaused) == FocusDispatch(telemetry, !isPaused)
  {
  }

  /** The session calls started so far, after one more event: at most one is appended. */
  function Dispatched(calls: seq<SessionCall>, d: Option<SessionCall>): (r: seq<SessionCall>)
    ensures |r| == |calls| + (if d.Some? then 1 else 0)
    ensures r[..|calls|] == calls
    ensures d.Some? ==> r[|calls|] == d.value
  {
    match d
    case None => calls
    case Some(c) => calls + [c]
  }

  /** A static `Instance` field: the component that last called `Initialize`. */
  class Singleton<T> {
    var instance: Option<T>

    constructor ()
      ensures instance == None
    {
      instance := None;
    }
  }
}

=== FILE: manager.dfy ===
/**
 * `PlaySafeManager` (Runtime/PlaySafeManager.cs): the user-facing entry
 * point.  Its behaviour is the one-shot `Initialize`/`Setup` sequence and the
 * presence-session calls made on focus and pause events; it keeps its own
 * `_lastRecording` stopwatch, which `Setup` restarts.
 */
module Manager {
  import opened Wrappers
  import opened Recorder
  import opened Lifecycle

  class PlaySafeManager {
    var isInitialized: bool
    /** Whether the `CanRecord` delegate is set. */
    var hasCanRecord: bool
    var getTelemetry: TelemetrySource
    var lastRecording: Stopwatch
    /** `GetProductAIConfig` requests started. */
    var configRequests: nat
    /** `StartSession` / `EndSession` coroutines started, in order. */
    var sessionCalls: seq<SessionCall>
    /** How many times `Setup` has run. */
    ghost var setupRuns: nat

    /** `Setup` has run exactly when the manager is initialised, so at most once. */
    ghost predicate Valid()
      reads this
    {
      setupRuns == if isInitialized then 1 else 0
    }

    constructor ()
      ensures Valid() && !isInitialized && !hasCanRecord && getTelemetry == Unset
      ensures lastRecording == Idle && configRequests == 0 && sessionCalls == []
    {
      isInitialized := false;
      hasCanRecord := false;
      getTelemetry := Unset;
      lastRecording := Idle;
      configRequests := 0;
      sessionCalls := [];
      setupRuns := 0;
    }

    /** `Awake`: registers the manager as `Instance`.  Building the service
        clients and their remote-config load are not part of this model. */
    method Awake(registry: Singleton<PlaySafeManager>)
      modifies registry`instance
      ensures registry.instance == Some(this)
    {
      registry.instance := Some(this);
    }

    /** Registers the manager as `Instance` before any check; only a first
        call with both delegates set initialises and runs `Setup`. */
    method Initialize(registry: Singleton<PlaySafeManager>, now: real)
      requires Valid()
      modifies this`isInitialized, this`configRequests, this`lastRecording, this`setupRuns, registry`instance
      ensures Valid() && setupRuns <= 1
      ensures registry.instance == Some(this)
      ensures InitCheck(old(hasCanRecord), old(getTelemetry) != Unset, old(isInitialized)) == Proceed ==>
        && isInitialized && configRequests == old(configRequests) + 1
        && lastRecording == Running(now) && lastRecording.Elapsed(now) == 0.0
        && sessionCalls == old(sessionCalls)
      ensures InitCheck(old(hasCanRecord), old(getTelemetry) != Unset, old(isInitialized)) != Proceed ==>
        unchanged(this)
    {
      registry.instance := Some(this);
      if !hasCanRecord {
        return;
      }
      if getTelemetry.Unset? {
        return;
      }
      if isInitialized {
        return;
      }
      isInitialized := true;
      Setup(now);
    }

    /** Starts the remote-config fetch and restarts the stopwatch. */
    method Setup(now: real)
      modifies this`configRequests, this`lastRecording, this`setupRuns
      ensures setupRuns == old(setupRuns) + 1 && configRequests == old(configRequests) + 1
      ensures lastRecording == Running(now)
      ensures isInitialized == old(isInitialized) && hasCanRecord == old(hasCanRecord)
      ensures getTelemetry == old(getTelemetry) && sessionCalls == old(sessionCalls)
    {
      configRequests := configRequests + 1;
      lastRecording := Running(now);
      setupRuns := setupRuns + 1;
    }

    method OnApplicationFocus(hasFocus: bool)
      requires Valid()
      modifies this`sessionCalls
      ensures Valid()
      ensures sessionCalls == Dispatched(old(sessionCalls), FocusDispatch(getTelemetry, hasFocus))
      ensures isInitialized == old(isInitialized) && getTelemetry == old(getTelemetry)
      ensures lastRecording == old(lastRecording) && configRequests == old(configRequests)
    {
      if getTelemetry.Unset? || getTelemetry.result.None? {
        return;
      }
      var userId := getTelemetry.result.value.userId;
      if !hasFocus {
        sessionCalls := sessionCalls + [EndSession(userId)];
      } else {
        sessionCalls := sessionCalls + [StartSession(userId)];
      }
    }

    method OnApplicationPause(isPaused: bool)
      requires Valid()
      modifies this`sessionCalls
      ensures Valid()
      ensures sessionCalls == Dispatched(old(sessionCalls), PauseDispatch(getTelemetry, isPaused))
      ensures isInitialized == old(isInitialized) && getTelemetry == old(getTelemetry)
      ensures lastRecording == old(lastRecording) && configRequests == old(configRequests)
    {
      if getTelemetry.Unset? || getTelemetry.result.None? {
        return;
      }
      var userId := getTelemetry.result.value.userId;
      if isPaused {
        sessionCalls := sessionCalls + [EndSession(userId)];
      } else {
        sessionCalls := sessionCalls + [StartSession(userId)];
      }
    }
  }
}

=== FILE: moderation.dfy ===
/**
 * `DLVoiceAIModeration` (Runtime/DLVoiceAIModeration.cs): the MonoBehaviour
 * that samples the microphone on a duty cycle, uploads non-silent clips for
 * voice moderation, forwards the first recommended action to the game, and
 * tunes its intermission from the remote configuration.
 *
 * Its recording fields and its encoder are the members of
 * `PlaySafeAudioRecorder` repeated line for line, so the component owns one
 * `AudioRecorder` and drives it.  HTTP requests are recorded as the values
 * they would send; server replies arrive already parsed, `None` standing for
 * a reply `JsonConvert` could not turn into an object.
 */
module Moderation {
  import opened Wrappers
  import opened WavFormat
  import opened Recorder
  import opened Lifecycle

  // ---------------------------------------------------------------------
  // Parsed server replies
  // ---------------------------------------------------------------------

  /** An enforcement action; `actionEndDate` is a `DateTime` in ticks. */
  datatype ActionItem = ActionItem(action: string, durationInMinutes: int, actionEndDate: int, reason: string)

  datatype Recommendation = Recommendation(policyName: string, hasViolation: bool, actions: Option<seq<ActionItem>>)

  datatype ActionData = ActionData(recommendation: Option<Recommendation>)

  /** The moderation reply; absent members are JSON nulls. */
  datatype ActionResponse = ActionResponse(ok: bool, message: string, data: Option<ActionData>)

  datatype RemoteConfigData = RemoteConfigData(samplingRate: real, isSmartSamplingEnabled: bool,
                                               audioSilenceThreshold: real, playerStatsExpiryInDays: int,
                                               sessionPulseIntervalSeconds: int)

  datatype ConfigResponse = ConfigResponse(ok: bool, message: string, data: Option<RemoteConfigData>)

  /** The multipart form posted to the moderation endpoint. */
  datatype Upload = Upload(userId: string, roomId: string, wav: seq<byte>)

  // ---------------------------------------------------------------------
  // Remote configuration: sampling rate to intermission
  // ---------------------------------------------------------------------

  /** Sampling rates at or below this count as zero. */
  const SamplingRateFloor: real := 0.000001

  /** `Mathf.Clamp(x, 0f, 1f)`. */
  function Clamp01(x: real): (r: real)
    ensures 0.0 <= r <= 1.0
    ensures 0.0 <= x <= 1.0 ==> r == x
    ensures x < 0.0 ==> r == 0.0
    ensures x > 1.0 ==> r == 1.0
  {
    if x < 0.0 then 0.0 else if x > 1.0 then 1.0 else x
  }

  function Max(a: int, b: int): (r: int)
    ensures r >= a && r >= b && (r == a || r == b)
  {
    if a >= b then a else b
  }

  /** The intermission a sampling rate asks for: with the rate clamped to
      [0, 1], the whole seconds `10 / rate - 10` (never negative), or
      `int.MaxValue` (never record) when the rate is next to zero. */
  function IntermissionFor(samplingRate: real): (r: int)
    ensures 0 <= r <= Int32Max
    ensures Clamp01(samplingRate) <= SamplingRateFloor ==> r == Int32Max
  {
    var s := Clamp01(samplingRate);
    if s > SamplingRateFloor then
      TenOverRateBound(s);
      Max(0, Trunc(RecordingDurationSeconds as real / s - RecordingDurationSeconds as real))
    else Int32Max
  }

  lemma TenOverRateBound(s: real)
    requires SamplingRateFloor < s <= 1.0
    ensures 10.0 <= 10.0 / s < 10_000_000.0
  {
    var q := 10.0 / s;
    assert q * s == 10.0;
    MulMonotone(SamplingRateFloor, s, q);
    MulMonotone(s, 1.0, q);
  }

  lemma MulMonotone(a: real, b: real, c: real)
    requires a <= b && c >= 0.0
    ensures a * c <= b * c
  {
  }

  lemma DivAtLeast(n: real, d: real, c: real)
    requires d > 0.0 && d * c <= n
    ensures n / d >= c
  {
    var q := n / d;
    assert (q - c) * d == n - d * c;
  }

  lemma DivBelow(n: real, d: real, c: real)
    requires d > 0.0 && d * c > n
    ensures n / d < c
  {
    var q := n / d;
    assert (c - q) * d == d * c - n;
  }

  /** For a rate above the floor, the intermission is the largest whole
      number of seconds that keeps one 10 s window in every
      `10 + intermission` seconds at or above the requested rate. */
  lemma IntermissionDutyCycle(samplingRate: real)
    requires Clamp01(samplingRate) > SamplingRateFloor
    ensures var c, r := Clamp01(samplingRate), IntermissionFor(samplingRate) as real;
      10.0 / (10.0 + r) >= c && 10.0 / (11.0 + r) < c
  {
    var c := Clamp01(samplingRate);
    var r := IntermissionFor(samplingRate) as real;
    var q := IntermissionWithin(samplingRate);
    MulMonotone(10.0 + r, q, c);
    DivAtLeast(10.0, 10.0 + r, c);
    MulPositive(11.0 + r - q, c);
    assert (11.0 + r) * c == (11.0 + r - q) * c + q * c;
    DivBelow(10.0, 11.0 + r, c);
  }

  /** The whole seconds of `10 / rate - 10`, against the exact quotient `q`. */
  lemma IntermissionWithin(samplingRate: real) returns (q: real)
    requires Clamp01(samplingRate) > SamplingRateFloor
    ensures q * Clamp01(samplingRate) == 10.0
    ensures 10.0 + IntermissionFor(samplingRate) as real <= q < 11.0 + IntermissionFor(samplingRate) as real
  {
    var c := Clamp01(samplingRate);
    TenOverRateBound(c);
    q := 10.0 / c;
    assert IntermissionFor(samplingRate) == Trunc(q - 10.0);
  }

  lemma MulPositive(a: real, b: real)
    requires a > 0.0 && b > 0.0
    ensures a * b > 0.0
  {
  }

  /** The lower the sampling rate, the longer the intermission. */
  lemma IntermissionAntitone(a: real, b: real)
    requires a <= b
    ensures IntermissionFor(a) >= IntermissionFor(b)
  {
    var ca, cb := Clamp01(a), Clamp01(b);
    if ca > SamplingRateFloor {
      TenOverRateBound(ca);
      TenOverRateBound(cb);
      assert 10.0 / ca >= 10.0 / cb by {
        assert (10.0 / cb) * cb == 10.0;
        MulMonotone(ca, cb, 10.0 / cb);
        DivAtLeast(10.0, ca, 10.0 / cb);
      }
    }
  }

  /** The rates the configuration service sends, and what they become. */
  lemma IntermissionExamples()
    ensures IntermissionFor(1.0) == 0
    ensures IntermissionFor(0.5) == 10
    ensures IntermissionFor(0.1) == 90
    ensures IntermissionFor(0.0) == Int32Max
    ensures IntermissionFor(2.0) == 0 && IntermissionFor(-1.0) == Int32Max
  {
  }

  /** `ProcessRemoteConfig`: the intermission after one reply.  An
      unparsable reply, a failed one, or one without data (whose
      dereference throws before the assignment) keeps the current value. */
  function NextIntermission(current: int, reply: Option<ConfigResponse>): (r: int)
    ensures reply.None? || !reply.value.ok || reply.value.data.None? ==> r == current
    ensures reply.Some? && reply.value.ok && reply.value.data.Some? ==>
              r == IntermissionFor(reply.value.data.value.samplingRate)
    ensures current >= 0 ==> r >= 0
  {
    match reply
    case None => current
    case Some(response) =>
      if !response.ok then current
      else match response.data
        case None => current
        case Some(config) => IntermissionFor(config.samplingRate)
  }

  /** A failed fetch after a successful one leaves the successful value. */
  lemma FailedFetchKeepsValue(current: int, good: ConfigResponse, bad: Option<ConfigResponse>)
    requires good.ok && good.data.Some?
    requires bad.None? || !bad.value.ok
    ensures NextIntermission(NextIntermission(current, Some(good)), bad) == IntermissionFor(good.data.value.samplingRate)
  {
  }

  // ---------------------------------------------------------------------
  // Moderation replies: which action is forwarded
  // ---------------------------------------------------------------------

  /** The recommendation of a reply that parsed, succeeded and carries one. */
  function Recommended(reply: Option<ActionResponse>): Option<Recommendation>
  {
    if reply.Some? && reply.value.ok && reply.value.data.Some? then reply.value.data.value.recommendation
    else None
  }

  /** `ProcessModerationResponse`: the action handed to `OnActionEvent`.
      Only the first recommended action, and only for a successful reply
      reporting a violation with a non-empty action list; a null along the
      way throws, is caught, and forwards nothing. */
  function SelectAction(reply: Option<ActionResponse>): (r: Option<ActionItem>)
    ensures r.Some? <==> Recommended(reply).Some? && Recommended(reply).value.hasViolation
                         && Recommended(reply).value.actions.Some? && |Recommended(reply).value.actions.value| > 0
    ensures r.Some? ==> r.value == Recommended(reply).value.actions.value[0]
  {
    match reply
    case None => None
    case Some(response) =>
      if !response.ok || response.data.None? then None
      else match response.data.value.recommendation
        case None => None
        case Some(rec) =>
          if !rec.hasViolation || rec.actions.None? || |rec.actions.value| == 0 then None
          else Some(rec.actions.value[0])
  }

  /** Actions after the first never influence what is forwarded. */
  lemma OnlyFirstActionCounts(reply: ActionResponse, rec: Recommendation, first: ActionItem,
                              rest1: seq<ActionItem>, rest2: seq<ActionItem>)
    requires reply.data == Some(ActionData(Some(rec)))
    ensures SelectAction(Some(reply.(data := Some(ActionData(Some(rec.(actions := Some([first] + rest1))))))))
         == SelectAction(Some(reply.(data := Some(ActionData(Some(rec.(actions := Some([first] + rest2))))))))
  {
  }

  // ---------------------------------------------------------------------
  // The upload gate
  // ---------------------------------------------------------------------

  /** `SendAudioClipForAnalysisCoroutine`: what is posted for a clip.  A
      null clip and a silent clip are dropped; so is every clip when the
      telemetry delegate is unset or returns null, since building the form
      then throws. */
  ghost function AnalysisUploads(clip: Option<AudioClip>, threshold: real, telemetry: TelemetrySource): (r: seq<Upload>)
    requires ValidClip(clip)
    ensures |r| <= 1
    ensures |r| == 1 <==> clip.Some? && !IsSilent(clip.value.data, threshold) && telemetry.Current().Some?
  {
    if clip.None? || IsSilent(clip.value.data, threshold) then []
    else match telemetry.Current()
      case None => []
      case Some(t) => [Upload(t.userId, t.roomId, EncodeWav(clip.value))]
  }

  /** Whatever is uploaded is a WAV file that decodes to the clip's channel
      count, rate and quantised samples, and whose peak amplitude exceeds the
      silence threshold. */
  lemma UploadIsLoudWav(clip: Option<AudioClip>, threshold: real, telemetry: TelemetrySource)
    requires ValidClip(clip) && threshold >= 0.0
    requires clip.Some? ==> 0 <= clip.value.channels < 0x8000 && 0 <= clip.value.frequency <= Int32Max
    requires clip.Some? ==> clip.value.frequency * clip.value.channels * 2 <= Int32Max
    ensures forall u <- AnalysisUploads(clip, threshold, telemetry) ::
      && DecodeWav(u.wav) == Some(WavInfo(clip.value.channels, clip.value.frequency, Quantized(clip.value.data)))
      && PeakAbs(clip.value.data) > threshold
      && Some(Telemetry(u.userId, u.roomId)) == telemetry.Current()
  {
    if AnalysisUploads(clip, threshold, telemetry) != [] {
      EncodeDecodeRoundTrip(clip.value);
      SilentIffPeakWithin(clip.value.data, threshold);
    }
  }

  // ---------------------------------------------------------------------
  // The component
  // ---------------------------------------------------------------------

  class VoiceModeration {
    /** The recording fields, the reused stream and the encoder. */
    const recorder: AudioRecorder
    var isInitialized: bool
    /** Whether the `CanRecord` delegate is set; its answers are tick inputs. */
    var hasCanRecord: bool
    var getTelemetry: TelemetrySource
    /** Whether the `OnActionEvent` callback is set. */
    var hasOnActionEvent: bool

    /** `GetProductAIConfig` requests started. */
    var configRequests: nat
    /** `StartSession` / `EndSession` coroutines started, in order. */
    var sessionCalls: seq<SessionCall>
    /** Forms posted to the moderation endpoint, in order. */
    var uploads: seq<Upload>
    /** Actions handed to `OnActionEvent`, in order. */
    var firedActions: seq<ActionItem>
    /** How many times `Setup` has run. */
    ghost var setupRuns: nat

    /** `Setup` has run exactly when the component is initialised, so at most once. */
    ghost predicate Valid()
      reads this, recorder
    {
      recorder.Valid() && setupRuns == if isInitialized then 1 else 0
    }

    constructor (isEditor: bool, debugEnableRecord: bool, silenceThreshold: real)
      ensures Valid() && fresh(recorder) && fresh(recorder.reusableStream)
      ensures !isInitialized && !hasCanRecord && getTelemetry == Unset && !hasOnActionEvent
      ensures configRequests == 0 && sessionCalls == [] && uploads == [] && firedActions == []
      ensures recorder.State() == RecState(false, Idle, None, [], DefaultIntermissionSeconds, [])
      ensures recorder.GetMode() == Mode(isEditor, debugEnableRecord) && recorder.silenceThreshold == silenceThreshold
    {
      recorder := new AudioRecorder(isEditor, debugEnableRecord, silenceThreshold);
      isInitialized := false;
      hasCanRecord := false;
      getTelemetry := Unset;
      hasOnActionEvent := false;
      configRequests := 0;
      sessionCalls := [];
      uploads := [];
      firedActions := [];
      setupRuns := 0;
    }

    /** Registers the component as `Instance` first, then runs the guard;
        only a first call with both delegates set initialises and runs
        `Setup`, otherwise nothing else changes. */
    method Initialize(registry: Singleton<VoiceModeration>, now: real)
      requires Valid()
      modifies this`isInitialized, this`configRequests, this`setupRuns
      modifies recorder`lastRecording, recorder`restarts, registry`instance
      ensures Valid() && setupRuns <= 1
      ensures registry.instance == Some(this)
      ensures InitCheck(old(hasCanRecord), old(getTelemetry) != Unset, old(isInitialized)) == Proceed ==>
        && isInitialized && configRequests == old(configRequests) + 1
        && recorder.State() == old(recorder.State()).(lastRecording := Running(now), restarts := old(recorder.restarts) + [now])
        && recorder.lastRecording.Elapsed(now) == 0.0
      ensures InitCheck(old(hasCanRecord), old(getTelemetry) != Unset, old(isInitialized)) != Proceed ==>
        unchanged(this) && unchanged(recorder)
    {
      registry.instance := Some(this);
      if !hasCanRecord {
        return;
      }
      if getTelemetry.Unset? {
        return;
      }
      if isInitialized {
        return;
      }
      isInitialized := true;
      Setup(now);
    }

    /** Starts the remote-config fetch and restarts the stopwatch. */
    method Setup(now: real)
      requires recorder.Valid()
      modifies this`configRequests, this`setupRuns, recorder`lastRecording, recorder`restarts
      ensures recorder.Valid() && setupRuns == old(setupRuns) + 1
      ensures configRequests == old(configRequests) + 1
      ensures recorder.State() == old(recorder.State()).(lastRecording := Running(now), restarts := old(recorder.restarts) + [now])
      ensures recorder.lastRecording.Elapsed(now) == 0.0
      ensures isInitialized == old(isInitialized) && hasCanRecord == old(hasCanRecord)
      ensures getTelemetry == old(getTelemetry) && hasOnActionEvent == old(hasOnActionEvent)
      ensures sessionCalls == old(sessionCalls) && uploads == old(uploads) && firedActions == old(firedActions)
    {
      configRequests := configRequests + 1;
      recorder.RestartStopwatch(now);
      setupRuns := setupRuns + 1;
    }

    /** One frame: the tick decision of the recorder, and, when it stops a
        recording, the analysis of the clip just recorded. */
    method Update(t: TickInput)
      requires Valid() && ValidClip(t.micClip)
      modifies this`uploads, recorder`audioClipRecording, recorder`isRecording, recorder`lastRecording
      modifies recorder`restarts, recorder`pendingAnalyses, recorder.reusableStream
      ensures Valid()
      ensures recorder.State() == AfterTick(old(recorder.State()), recorder.GetMode(), isInitialized, t)
      ensures uploads == old(uploads)
        + if Decide(old(recorder.State()), recorder.GetMode(), isInitialized, t) == Stop
          then AnalysisUploads(old(recorder.audioClipRecording), recorder.silenceThreshold, getTelemetry)
          else []
      ensures isInitialized == old(isInitialized) && getTelemetry == old(getTelemetry)
      ensures recorder.silenceThreshold == old(recorder.silenceThreshold)
      ensures recorder.GetMode() == old(recorder.GetMode())
    {
      if !isInitialized {
        return;
      }
      if !t.hasPermission {
        return;
      }
      if recorder.ShouldRecord(t.now, t.canRecord) {
        recorder.StartRecording(t.now, t.deviceCount, t.micClip);
      } else if recorder.isRecording && recorder.lastRecording.Elapsed(t.now) > RecordingDurationSeconds as real {
        StopRecording();
      }
    }

    /** Ends a running recording and sends its clip for analysis. */
    method StopRecording()
      requires Valid()
      modifies this`uploads, recorder`isRecording, recorder`pendingAnalyses, recorder.reusableStream
      ensures Valid()
      ensures recorder.State() == AfterStop(old(recorder.State()))
      ensures uploads == old(uploads)
        + if old(recorder.isRecording)
          then AnalysisUploads(old(recorder.audioClipRecording), recorder.silenceThreshold, getTelemetry)
          else []
      ensures isInitialized == old(isInitialized) && getTelemetry == old(getTelemetry)
      ensures recorder.silenceThreshold == old(recorder.silenceThreshold)
      ensures recorder.GetMode() == old(recorder.GetMode())
    {
      if !recorder.isRecording {
        return;
      }
      SendAudioClipForAnalysis(recorder.audioClipRecording);
      recorder.StopRecording();
    }

    /** Manual toggle, as `ToggleRecording`. */
    method ToggleRecording(now: real, deviceCount: int, micClip: Option<AudioClip>)
      requires Valid() && ValidClip(micClip)
      modifies this`uploads, recorder`audioClipRecording, recorder`isRecording, recorder`lastRecording
      modifies recorder`restarts, recorder`pendingAnalyses, recorder.reusableStream
      ensures Valid()
      ensures recorder.State() == if old(recorder.isRecording) then AfterStop(old(recorder.State()))
                                  else AfterStart(old(recorder.State()), now, deviceCount, micClip)
      ensures uploads == old(uploads)
        + if old(recorder.isRecording)
          then AnalysisUploads(old(recorder.audioClipRecording), recorder.silenceThreshold, getTelemetry)
          else []
    {
      if recorder.isRecording {
        StopRecording();
      } else {
        recorder.StartRecording(now, deviceCount, micClip);
      }
    }

    /** Encodes the clip and posts it unless it is null or silent. */
    method SendAudioClipForAnalysis(clip: Option<AudioClip>)
      requires ValidClip(clip)
      modifies this`uploads, recorder.reusableStream
      ensures uploads == old(uploads) + AnalysisUploads(clip, recorder.silenceThreshold, getTelemetry)
      ensures isInitialized == old(isInitialized) && getTelemetry == old(getTelemetry)
      ensures configRequests == old(configRequests) && setupRuns == old(setupRuns)
      ensures sessionCalls == old(sessionCalls) && firedActions == old(firedActions)
    {
      if clip.None? {
        return;
      }
      var encoded := recorder.AudioClipToWav(clip);
      var wav := encoded.value;
      if wav.isSilent {
        return;
      }
      match getTelemetry.Current()
      case None =>
        return;
      case Some(telemetry) =>
        uploads := uploads + [Upload(telemetry.userId, telemetry.roomId, wav.wavFileBytes)];
    }

    /** Forwards the selected action, if any, to `OnActionEvent` when set. */
    method ProcessModerationResponse(reply: Option<ActionResponse>)
      modifies this`firedActions
      ensures firedActions == old(firedActions)
        + if hasOnActionEvent && SelectAction(reply).Some? then [SelectAction(reply).value] else []
      ensures |firedActions| <= |old(firedActions)| + 1
      ensures uploads == old(uploads) && sessionCalls == old(sessionCalls)
      ensures isInitialized == old(isInitialized) && setupRuns == old(setupRuns)
      ensures hasOnActionEvent == old(hasOnActionEvent)
    {
      if reply.None? {
        return;
      }
      var response := reply.value;
      if response.ok {
        if response.data.None? {
          return;
        }
        var recommendation := response.data.value.recommendation;
        if recommendation.None? {
          return;
        }
        var rec := recommendation.value;
        if rec.hasViolation {
          if rec.actions.None? {
            return;
          }
          if |rec.actions.value| > 0 && hasOnActionEvent {
            firedActions := firedActions + [rec.actions.value[0]];
          }
        }
      }
    }

    /** Applies a remote-config reply to the intermission; nothing else,
        the silence threshold included, changes. */
    method ProcessRemoteConfig(reply: Option<ConfigResponse>)
      requires Valid()
      modifies recorder`recordingIntermissionSeconds
      ensures Valid()
      ensures recorder.State() == old(recorder.State()).(intermission := NextIntermission(old(recorder.recordingIntermissionSeconds), reply))
      ensures recorder.silenceThreshold == old(recorder.silenceThreshold)
      ensures recorder.GetMode() == old(recorder.GetMode())
    {
      if reply.None? {
        return;
      }
      var response := reply.value;
      if response.ok {
        if response.data.None? {
          return;
        }
        var config := response.data.value;
        recorder.recordingIntermissionSeconds := IntermissionFor(config.samplingRate);
      }
    }

    method OnApplicationFocus(hasFocus: bool)
      modifies this`sessionCalls
      ensures sessionCalls == Dispatched(old(sessionCalls), FocusDispatch(getTelemetry, hasFocus))
      ensures uploads == old(uploads) && firedActions == old(firedActions)
      ensures isInitialized == old(isInitialized) && setupRuns == old(setupRuns) && getTelemetry == old(getTelemetry)
    {
      if getTelemetry.Unset? || getTelemetry.result.None? {
        return;
      }
      var userId := getTelemetry.result.value.userId;
      if !hasFocus {
        sessionCalls := sessionCalls + [EndSession(userId)];
      } else {
        sessionCalls := sessionCalls + [StartSession(userId)];
      }
    }

    method OnApplicationPause(isPaused: bool)
      modifies this`sessionCalls
      ensures sessionCalls == Dispatched(old(sessionCalls), PauseDispatch(getTelemetry, isPaused))
      ensures uploads == old(uploads) && firedActions == old(firedActions)
      ensures isInitialized == old(isInitialized) && setupRuns == old(setupRuns) && getTelemetry == old(getTelemetry)
    {
      if getTelemetry.Unset? || getTelemetry.result.None? {
        return;
      }
      var userId := getTelemetry.result.value.userId;
      if isPaused {
        sessionCalls := sessionCalls + [EndSession(userId)];
      } else {
        sessionCalls := sessionCalls + [StartSession(userId)];
      }
    }
  }
}

=== FILE: playsafe.dfy ===
/**
 * `PlaySafe` (Runtime/PlaySafe.cs): the bare per-frame tick.  It reads the
 * component's initialisation flag and drives the recording state it shares
 * with `PlaySafeAudioRecorder`, represented here by an `AudioRecorder`.
 */
module PlaySafeTick {
  import opened Recorder

  class PlaySafe {
    var isInitialized: bool
    /** The recording fields the tick reads and the start/stop it calls. */
    const recorder: AudioRecorder

    constructor (recorder: AudioRecorder, isInitialized: bool)
      ensures this.recorder == recorder && this.isInitialized == isInitialized
    {
      this.recorder := recorder;
      this.isInitialized := isInitialized;
    }

    /** `Update`: returns early unless initialised and permitted; starts a
        recording when `ShouldRecord()` holds, and only otherwise stops one
        that has run strictly longer than the window. */
    method Update(t: TickInput)
      requires recorder.Valid() && ValidClip(t.micClip)
      modifies recorder`audioClipRecording, recorder`isRecording, recorder`lastRecording
      modifies recorder`restarts, recorder`pendingAnalyses
      ensures recorder.Valid()
      ensures recorder.State() == AfterTick(old(recorder.State()), recorder.GetMode(), isInitialized, t)
      ensures !isInitialized || !t.hasPermission ==> unchanged(recorder)
      ensures recorder.reusableStream == old(recorder.reusableStream)
      ensures recorder.silenceThreshold == old(recorder.silenceThreshold)
      ensures recorder.GetMode() == old(recorder.GetMode())
    {
      if !isInitialized {
        return;
      }
      if !t.hasPermission {
        return;
      }
      if recorder.ShouldRecord(t.now, t.canRecord) {
        recorder.StartRecording(t.now, t.deviceCount, t.micClip);
      } else if recorder.isRecording && recorder.lastRecording.Elapsed(t.now) > RecordingDurationSeconds as real {
        recorder.StopRecording();
      }
    }
  }
}

=== FILE: recorder.dfy ===
/**
 * `PlaySafeAudioRecorder` (Runtime/Core/AudioRecorder.cs): the encoder that
 * turns a recorded clip into a WAV upload, and the two-state recording
 * controller (idle / recording) driven by a stopwatch that is restarted only
 * when a recording starts.  `DLVoiceAIModeration` carries the same members
 * line for line; in this model it owns one `AudioRecorder`.
 *
 * Unity's `Stopwatch` becomes the value `lastRecording` read against an
 * explicit `now`; `Microphone.devices.Length` and the clip `Microphone.Start`
 * returns are inputs of the calls that use them.
 */
module Recorder {
  import opened Wrappers
  import opened WavFormat
  import opened Streams

  /** Length of one recording window, in seconds. */
  const RecordingDurationSeconds: int := 10
  /** The intermission in force until a remote config replaces it. */
  const DefaultIntermissionSeconds: int := 60

  // ---------------------------------------------------------------------
  // The encoder
  // ---------------------------------------------------------------------

  datatype EncodeError = ArgumentNull

  datatype WavFile = WavFile(wavFileBytes: seq<byte>, isSilent: bool)

  /** A clip the encoder accepts: absent, or with as many samples as its
      frames and channels say, each in [-1, 1], and small enough for the
      32-bit RIFF size. */
  ghost predicate ValidClip(clip: Option<AudioClip>)
  {
    clip.Some? ==> WellShaped(clip.value) && Encodable(clip.value)
  }

  /** The conversion loop of `AudioClipToWav`: each sample becomes two bytes,
      low byte first, and in the same pass the silence flag is cleared by the
      first sample whose magnitude strictly exceeds the threshold. */
  method ConvertSamples(samples: seq<real>, threshold: real) returns (audioBytes: seq<byte>, isSilent: bool)
    requires InRange(samples)
    ensures audioBytes == PcmBytes(samples)
    ensures isSilent == IsSilent(samples, threshold)
  {
    var bytes := new byte[2 * |samples|];
    isSilent := true;
    for i := 0 to |samples|
      invariant isSilent == IsSilent(samples[..i], threshold)
      invariant forall k :: 0 <= k < 2 * i ==> bytes[k] == PcmByte(samples, k)
    {
      var sample := samples[i];
      if isSilent && Abs(sample) > threshold {
        isSilent := false;
      }
      assert samples[..i + 1] == samples[..i] + [sample];
      var intSample := Quantize(sample);
      bytes[2 * i] := LowByte(intSample);
      bytes[2 * i + 1] := HighByte(intSample);
    }
    assert samples[..|samples|] == samples;
    audioBytes := bytes[..];
    PcmBytesEach(samples);
  }

  // ---------------------------------------------------------------------
  // The recording controller, as values
  // ---------------------------------------------------------------------

  /** A stopped stopwatch reads zero; `Restart` makes it run from `now`. */
  datatype Stopwatch = Idle | Running(since: real) {
    function Elapsed(now: real): real {
      if Idle? then 0.0 else now - since
    }
  }

  /** `ShouldRecord`: never while recording; otherwise the editor debug
      override, or an intermission strictly exceeded while `CanRecord()`
      holds.  `CanRecord()` is only evaluated once the intermission is over. */
  function ShouldRecordRule(isEditor: bool, debugEnableRecord: bool, isRecording: bool,
                            elapsed: real, intermission: int, canRecord: bool): (r: bool)
    ensures isRecording ==> !r
    ensures r <==> !isRecording && ((isEditor && debugEnableRecord) || (elapsed > intermission as real && canRecord))
  {
    if isEditor && debugEnableRecord && !isRecording then true
    else !isRecording && elapsed > intermission as real && canRecord
  }

  datatype TickAction = NoAction | Start | Stop

  /** The `Update` tick: nothing unless initialised and permitted; a start
      whenever `ShouldRecord()` holds; otherwise a stop once a recording has
      run strictly longer than the window. */
  function TickDecision(initialized: bool, hasPermission: bool, shouldRecord: bool,
                        isRecording: bool, elapsed: real): (r: TickAction)
    ensures r == Start <==> initialized && hasPermission && shouldRecord
    ensures r == Stop <==> initialized && hasPermission && !shouldRecord && isRecording
                           && elapsed > RecordingDurationSeconds as real
  {
    if !initialized then NoAction
    else if !hasPermission then NoAction
    else if shouldRecord then Start
    else if isRecording && elapsed > RecordingDurationSeconds as real then Stop
    else NoAction
  }

  /** The recorder's mutable state; `restarts` logs every stopwatch restart. */
  datatype RecState = RecState(isRecording: bool, lastRecording: Stopwatch, clip: Option<AudioClip>,
                               pendingAnalyses: seq<Option<AudioClip>>, intermission: int,
                               restarts: seq<real>)

  /** The stopwatch always runs from the latest restart, and the intermission
      is never negative. */
  ghost predicate Consistent(s: RecState)
  {
    && s.intermission >= 0
    && s.lastRecording == if s.restarts == [] then Idle else Running(s.restarts[|s.restarts| - 1])
  }

  /** `StartRecording`: without a microphone nothing changes. */
  function AfterStart(s: RecState, now: real, deviceCount: int, micClip: Option<AudioClip>): (r: RecState)
    ensures deviceCount <= 0 ==> r == s
    ensures deviceCount > 0 ==> r.isRecording && r.clip == micClip && r.lastRecording.Elapsed(now) == 0.0
    ensures r.pendingAnalyses == s.pendingAnalyses && r.intermission == s.intermission
    ensures Consistent(s) ==> Consistent(r)
  {
    if deviceCount <= 0 then s
    else s.(isRecording := true, lastRecording := Running(now), clip := micClip, restarts := s.restarts + [now])
  }

  /** `StopRecording`: when idle nothing changes; otherwise one analysis of
      the recorded clip is dispatched. */
  function AfterStop(s: RecState): (r: RecState)
    ensures !s.isRecording ==> r == s
    ensures s.isRecording ==> !r.isRecording && r.pendingAnalyses == s.pendingAnalyses + [s.clip]
    ensures r.lastRecording == s.lastRecording && r.restarts == s.restarts && r.intermission == s.intermission
    ensures Consistent(s) ==> Consistent(r)
  {
    if !s.isRecording then s
    else s.(isRecording := false, pendingAnalyses := s.pendingAnalyses + [s.clip])
  }

  /** What the host feeds a tick: the time, `HasMicrophonePermission()`,
      `Microphone.devices.Length`, `CanRecord()` and what `Microphone.Start`
      would return. */
  datatype TickInput = TickInput(now: real, hasPermission: bool, deviceCount: int, canRecord: bool,
                                 micClip: Option<AudioClip>)

  /** Whether the editor debug override (`Application.isEditor && debugEnableRecord`) is on. */
  datatype Mode = Mode(isEditor: bool, debugEnableRecord: bool) {
    predicate Override() { isEditor && debugEnableRecord }
  }

  /** What one `Update` tick does: nothing unless initialised and permitted;
      a start only when idle; a stop only for a recording past the window. */
  function Decide(s: RecState, mode: Mode, initialized: bool, t: TickInput): (r: TickAction)
    ensures r != NoAction ==> initialized && t.hasPermission
    ensures r == Start ==> !s.isRecording
    ensures r == Start && !mode.Override() ==> s.lastRecording.Elapsed(t.now) > s.intermission as real && t.canRecord
    ensures r == Stop <==> initialized && t.hasPermission && s.isRecording
                           && s.lastRecording.Elapsed(t.now) > RecordingDurationSeconds as real
  {
    var elapsed := s.lastRecording.Elapsed(t.now);
    var should := ShouldRecordRule(mode.isEditor, mode.debugEnableRecord, s.isRecording, elapsed, s.intermission, t.canRecord);
    TickDecision(initialized, t.hasPermission, should, s.isRecording, elapsed)
  }

  /** The state after one `Update` tick. */
  function AfterTick(s: RecState, mode: Mode, initialized: bool, t: TickInput): (r: RecState)
    ensures r.intermission == s.intermission
    ensures |s.pendingAnalyses| <= |r.pendingAnalyses| <= |s.pendingAnalyses| + 1
    ensures r.pendingAnalyses[..|s.pendingAnalyses|] == s.pendingAnalyses
    ensures Consistent(s) ==> Consistent(r)
  {
    match Decide(s, mode, initialized, t)
    case NoAction => s
    case Start => AfterStart(s, t.now, t.deviceCount, t.micClip)
    case Stop => AfterStop(s)
  }


  /** The state after a run of `Update` ticks, one input per frame. */
  function RunTicks(s: RecState, mode: Mode, initialized: bool, ticks: seq<TickInput>): RecState
    decreases |ticks|
  {
    if ticks == [] then s else RunTicks(AfterTick(s, mode, initialized, ticks[0]), mode, initialized, ticks[1..])
  }

  /** Without the debug override, a tick starts a recording only when the
      stopwatch has run strictly longer than the intermission since the
      latest restart; the new start is logged as the next restart. */
  lemma AutoStartSpacing(s: RecState, mode: Mode, initialized: bool, t: TickInput)
    requires Consistent(s) && !mode.Override()
    requires Decide(s, mode, initialized, t) == Start
    ensures s.restarts != [] && t.now - s.restarts[|s.restarts| - 1] > s.intermission as real
    ensures !s.isRecording && t.canRecord
    ensures t.deviceCount > 0 ==> AfterTick(s, mode, initialized, t).restarts == s.restarts + [t.now]
  {
  }

  /** A tick keeps the state consistent and the intermission as it was; the
      restart log only grows. */
  lemma TickConsistent(s: RecState, mode: Mode, initialized: bool, t: TickInput)
    requires Consistent(s)
    ensures var s' := AfterTick(s, mode, initialized, t);
      && Consistent(s') && s'.intermission == s.intermission
      && |s.restarts| <= |s'.restarts| <= |s.restarts| + 1 && s'.restarts[..|s.restarts|] == s.restarts
  {
    var s' := AfterTick(s, mode, initialized, t);
    assert s'.restarts[..|s.restarts|] == s.restarts by {
      if Decide(s, mode, initialized, t) == Start && t.deviceCount > 0 {
        assert s'.restarts == s.restarts + [t.now];
      }
    }
  }

  /** Every entry of `restarts` from index `from` on lies strictly more than
      `gap` after the entry before it. */
  ghost predicate SpacedFrom(restarts: seq<real>, from: nat, gap: real)
  {
    forall k {:trigger restarts[k]} :: from <= k < |restarts| ==> 0 < k && restarts[k - 1] + gap < restarts[k]
  }

  lemma SpacedAt(restarts: seq<real>, from: nat, gap: real, k: nat)
    requires SpacedFrom(restarts, from, gap) && from <= k < |restarts|
    ensures 0 < k && restarts[k - 1] + gap < restarts[k]
  {
  }

  /** Over any run of ticks without the debug override, every recording
      started during the run began strictly more than the intermission
      after the restart before it (the previous start, or `Setup`). */
  lemma {:induction false} RunTicksSpacing(s: RecState, mode: Mode, initialized: bool, ticks: seq<TickInput>)
    requires Consistent(s) && !mode.Override()
    ensures var r := RunTicks(s, mode, initialized, ticks);
      && Consistent(r) && r.intermission == s.intermission
      && |s.restarts| <= |r.restarts| && r.restarts[..|s.restarts|] == s.restarts
      && SpacedFrom(r.restarts, |s.restarts|, s.intermission as real)
    decreases |ticks|
  {
    if ticks != [] {
      var t := ticks[0];
      var s1 := AfterTick(s, mode, initialized, t);
      TickConsistent(s, mode, initialized, t);
      if |s1.restarts| > |s.restarts| {
        AutoStartSpacing(s, mode, initialized, t);
      }
      RunTicksSpacing(s1, mode, initialized, ticks[1..]);
      var r := RunTicks(s1, mode, initialized, ticks[1..]);
      assert r == RunTicks(s, mode, initialized, ticks);
      assert r.restarts[..|s.restarts|] == s.restarts by {
        assert r.restarts[..|s.restarts|] == r.restarts[..|s1.restarts|][..|s.restarts|];
      }
      forall k {:trigger r.restarts[k]} | |s.restarts| <= k < |r.restarts|
        ensures 0 < k && r.restarts[k - 1] + s.intermission as real < r.restarts[k]
      {
        if k < |s1.restarts| {
          assert k == |s.restarts|;
          assert r.restarts[k] == s1.restarts[k] == t.now;
          assert r.restarts[k - 1] == s.restarts[k - 1];
          assert t.now - s.restarts[|s.restarts| - 1] > s.intermission as real;
          assert 0 < k && r.restarts[k - 1] + s.intermission as real < r.restarts[k];
        } else {
          SpacedAt(r.restarts, |s1.restarts|, s.intermission as real, k);
        }
      }
    }
  }

  /** A recording that has run strictly longer than the window is stopped by
      the next permitted tick, and its clip goes to exactly one analysis. */
  lemma StopAfterWindow(s: RecState, mode: Mode, t: TickInput)
    requires t.hasPermission && s.isRecording
    requires s.lastRecording.Elapsed(t.now) > RecordingDurationSeconds as real
    ensures var s' := AfterTick(s, mode, true, t);
      && !s'.isRecording && s'.pendingAnalyses == s.pendingAnalyses + [s.clip]
      && s'.lastRecording == s.lastRecording
  {
  }

  /** Uninitialised, or without microphone permission, a tick changes nothing. */
  lemma TickGated(s: RecState, mode: Mode, initialized: bool, t: TickInput)
    requires !initialized || !t.hasPermission
    ensures AfterTick(s, mode, initialized, t) == s
  {
  }

  /** `CanRecord()` is never consulted while recording, nor before the
      intermission is over: its answer cannot change such a tick. */
  lemma CanRecordUnused(s: RecState, mode: Mode, initialized: bool, t: TickInput, canRecord: bool)
    requires s.isRecording || s.lastRecording.Elapsed(t.now) <= s.intermission as real
    ensures AfterTick(s, mode, initialized, t) == AfterTick(s, mode, initialized, t.(canRecord := canRecord))
  {
  }

  /** The intermission is counted from the START of the previous window, not
      from its end: with a 10 s intermission, a window started at 0 s and
      stopped at 10.5 s is followed by a new one at 10.6 s. */
  /** With the default 60 s intermission, the idle time after a 10 s window
      is the intermission less the window: a window started at 0 s and
      stopped at 10.5 s is not followed by a start at 10.6 s, nor at 60 s,
      but is at 60.5 s. */
  lemma IdleGapIsIntermissionLessWindow()
    ensures var mode := Mode(false, false);
      var s0 := RecState(true, Running(0.0), None, [], DefaultIntermissionSeconds, [0.0]);
      var s1 := AfterTick(s0, mode, true, TickInput(10.5, true, 1, true, None));
      && !s1.isRecording
      && !AfterTick(s1, mode, true, TickInput(10.6, true, 1, true, None)).isRecording
      && !AfterTick(s1, mode, true, TickInput(60.0, true, 1, true, None)).isRecording
      && AfterTick(s1, mode, true, TickInput(60.5, true, 1, true, None)).restarts == [0.0, 60.5]
  {
  }

  lemma IntermissionCountsFromStart()
    ensures var mode := Mode(false, false);
      var s0 := RecState(true, Running(0.0), None, [], 10, [0.0]);
      var s1 := AfterTick(s0, mode, true, TickInput(10.5, true, 1, true, None));
      var s2 := AfterTick(s1, mode, true, TickInput(10.6, true, 1, true, None));
      && !s1.isRecording && s2.isRecording && s2.restarts == [0.0, 10.6]
  {
  }

  // ---------------------------------------------------------------------
  // The recorder object
  // ---------------------------------------------------------------------

  class AudioRecorder {
    /** The stream reused by every `AudioClipToWav` call. */
    var reusableStream: MemoryStream
    var silenceThreshold: real
    var debugEnableRecord: bool
    /** `Application.isEditor`, fixed for the life of the component. */
    const isEditor: bool

    var audioClipRecording: Option<AudioClip>
    var isRecording: bool
    var lastRecording: Stopwatch
    var recordingIntermissionSeconds: int
    /** The `SendAudioClipForAnalysisCoroutine` runs started so far, by clip. */
    var pendingAnalyses: seq<Option<AudioClip>>
    ghost var restarts: seq<real>

    ghost function State(): RecState
      reads this
    {
      RecState(isRecording, lastRecording, audioClipRecording, pendingAnalyses, recordingIntermissionSeconds, restarts)
    }

    function GetMode(): Mode
      reads this
    {
      Mode(isEditor, debugEnableRecord)
    }

    ghost predicate Valid()
      reads this
    {
      Consistent(State()) && ValidClip(audioClipRecording)
    }

    constructor (isEditor: bool, debugEnableRecord: bool, silenceThreshold: real)
      ensures Valid() && fresh(reusableStream)
      ensures this.isEditor == isEditor && this.debugEnableRecord == debugEnableRecord
      ensures this.silenceThreshold == silenceThreshold
      ensures State() == RecState(false, Idle, None, [], DefaultIntermissionSeconds, [])
    {
      this.isEditor := isEditor;
      this.debugEnableRecord := debugEnableRecord;
      this.silenceThreshold := silenceThreshold;
      reusableStream := new MemoryStream();
      audioClipRecording := None;
      isRecording := false;
      lastRecording := Idle;
      recordingIntermissionSeconds := DefaultIntermissionSeconds;
      pendingAnalyses := [];
      restarts := [];
    }

    /** Encodes a clip as a WAV file and reports whether it is silent.  The
        reused stream is emptied first, so the result depends on the clip and
        the threshold only, never on an earlier call. */
    method AudioClipToWav(clip: Option<AudioClip>) returns (r: Result<WavFile, EncodeError>)
      requires ValidClip(clip)
      modifies reusableStream
      ensures clip.None? ==> r == Failure(ArgumentNull) && unchanged(reusableStream)
      ensures clip.Some? ==> r == Success(WavFile(EncodeWav(clip.value), IsSilent(clip.value.data, silenceThreshold)))
      ensures clip.Some? ==> reusableStream.buffer == EncodeWav(clip.value)
    {
      if clip.None? {
        return Failure(ArgumentNull);
      }
      var c := clip.value;

      reusableStream.SetLength(0);
      reusableStream.position := 0;

      var sampleCount := c.samples * c.channels;
      reusableStream.Write(Zeros(44));

      var samples := c.data;  // clip.GetData: `sampleCount` interleaved values
      assert |samples| == sampleCount;

      var audioBytes, isSilent := ConvertSamples(samples, silenceThreshold);
      PcmBytesLength(samples);
      reusableStream.Write(audioBytes);
      assert reusableStream.buffer == Zeros(44) + audioBytes;

      reusableStream.position := 0;
      WriteWavHeader(reusableStream, c, |audioBytes|);
      assert reusableStream.buffer == EncodeWav(c) by {
        assert (Zeros(44) + audioBytes)[44..] == audioBytes;
      }

      var result := reusableStream.buffer;  // ToArray
      r := Success(WavFile(result, isSilent));
    }

    /** Back-fills the 44-byte header over the reserved bytes at the start of
        the stream; the RIFF size is read from the stream's length. */
    static method WriteWavHeader(stream: MemoryStream, clip: AudioClip, dataLength: int)
      requires stream.position == 0 && |stream.buffer| >= 44
      modifies stream
      ensures stream.buffer == WavHeader(|old(stream.buffer)| - 8, clip.channels, clip.frequency, dataLength)
                               + old(stream.buffer)[44..]
      ensures stream.position == 44
    {
      ghost var reserved := stream.buffer;
      ghost var written: seq<byte> := [];
      var riffSize := |stream.buffer| - 8;
      // RIFF header
      written := stream.WriteOver(RiffTag, written, reserved);
      assert written == RiffTag;
      written := stream.WriteOver(Int32Bytes(Wrap32(riffSize)), written, reserved);
      written := stream.WriteOver(WaveTag, written, reserved);

      // fmt subchunk
      written := stream.WriteOver(FmtTag, written, reserved);
      written := stream.WriteOver(Int32Bytes(16), written, reserved);
      written := stream.WriteOver(Int16Bytes(1), written, reserved);
      written := stream.WriteOver(Int16Bytes(Wrap16(clip.channels)), written, reserved);
      written := stream.WriteOver(Int32Bytes(Wrap32(clip.frequency)), written, reserved);
      written := stream.WriteOver(Int32Bytes(Wrap32(clip.frequency * clip.channels * 2)), written, reserved);
      written := stream.WriteOver(Int16Bytes(Wrap16(clip.channels * 2)), written, reserved);
      written := stream.WriteOver(Int16Bytes(16), written, reserved);

      // data subchunk
      written := stream.WriteOver(DataTag, written, reserved);
      written := stream.WriteOver(Int32Bytes(Wrap32(dataLength)), written, reserved);
      assert written == WavHeader(riffSize, clip.channels, clip.frequency, dataLength);
    }

    /** `ShouldRecord()` at time `now`, given the current `CanRecord()`. */
    function ShouldRecord(now: real, canRecord: bool): (r: bool)
      reads this
      ensures r ==> !isRecording
      ensures r && !GetMode().Override() ==> lastRecording.Elapsed(now) > recordingIntermissionSeconds as real && canRecord
      ensures !isRecording && GetMode().Override() ==> r
    {
      ShouldRecordRule(isEditor, debugEnableRecord, isRecording, lastRecording.Elapsed(now), recordingIntermissionSeconds, canRecord)
    }

    method StartRecording(now: real, deviceCount: int, micClip: Option<AudioClip>)
      requires Valid() && ValidClip(micClip)
      modifies this`audioClipRecording, this`isRecording, this`lastRecording, this`restarts
      ensures Valid()
      ensures State() == AfterStart(old(State()), now, deviceCount, micClip)
      ensures deviceCount <= 0 ==> unchanged(this)
      ensures reusableStream == old(reusableStream) && silenceThreshold == old(silenceThreshold)
      ensures debugEnableRecord == old(debugEnableRecord)
    {
      if deviceCount <= 0 {
        return;
      }
      audioClipRecording := micClip;
      isRecording := true;
      lastRecording := Running(now);
      restarts := restarts + [now];
    }

    method StopRecording()
      requires Valid()
      modifies this`isRecording, this`pendingAnalyses
      ensures Valid()
      ensures State() == AfterStop(old(State()))
      ensures !old(isRecording) ==> unchanged(this)
      ensures reusableStream == old(reusableStream) && silenceThreshold == old(silenceThreshold)
      ensures debugEnableRecord == old(debugEnableRecord)
    {
      if !isRecording {
        return;
      }
      pendingAnalyses := pendingAnalyses + [audioClipRecording];
      isRecording := false;
    }

    /** `_lastRecording.Restart()`, as `Setup` does once initialisation succeeds. */
    method RestartStopwatch(now: real)
      requires Valid()
      modifies this`lastRecording, this`restarts
      ensures Valid()
      ensures State() == old(State()).(lastRecording := Running(now), restarts := old(restarts) + [now])
      ensures lastRecording.Elapsed(now) == 0.0
      ensures reusableStream == old(reusableStream) && silenceThreshold == old(silenceThreshold)
      ensures debugEnableRecord == old(debugEnableRecord)
    {
      lastRecording := Running(now);
      restarts := restarts + [now];
    }

    /** Manual toggle: stops a running recording, otherwise tries to start one.
        The flag flips unless a start finds no microphone. */
    method ToggleRecording(now: real, deviceCount: int, micClip: Option<AudioClip>)
      requires Valid() && ValidClip(micClip)
      modifies this`audioClipRecording, this`isRecording, this`lastRecording, this`restarts, this`pendingAnalyses
      ensures Valid()
      ensures State() == if old(isRecording) then AfterStop(old(State()))
                         else AfterStart(old(State()), now, deviceCount, micClip)
      ensures isRecording == if old(isRecording) then false else deviceCount > 0
      ensures reusableStream == old(reusableStream) && silenceThreshold == old(silenceThreshold)
      ensures debugEnableRecord == old(debugEnableRecord)
    {
      if isRecording {
        StopRecording();
      } else {
        StartRecording(now, deviceCount, micClip);
      }
    }
  }
}

=== FILE: streams.dfy ===
/**
 * The part of .NET's `MemoryStream` that the encoder relies on: a growable
 * byte buffer with a cursor.  Writing at the cursor overwrites what is there
 * and extends the buffer past its end; moving the cursor is a plain field
 * assignment, as setting `Position` is.
 */
module Streams {
  import opened WavFormat

  function Zeros(n: nat): (r: seq<byte>)
    ensures |r| == n && forall k :: 0 <= k < n ==> r[k] == 0
  {
    seq(n, _ => 0)
  }

  /** The buffer after writing `b` at offset `at`; a gap before `at` is zero-filled. */
  function Overwrite(d: seq<byte>, at: nat, b: seq<byte>): (r: seq<byte>)
    ensures |r| == if at + |b| <= |d| then |d| else at + |b|
    ensures r[at..at + |b|] == b
    ensures forall k :: 0 <= k < at && k < |d| ==> r[k] == d[k]
    ensures forall k :: at + |b| <= k < |d| ==> r[k] == d[k]
    ensures forall k :: |d| <= k < at ==> r[k] == 0
  {
    (if at <= |d| then d[..at] else d + Zeros(at - |d|))
    + b
    + (if at + |b| < |d| then d[at + |b|..] else [])
  }

  class MemoryStream {
    var buffer: seq<byte>
    var position: nat

    constructor ()
      ensures buffer == [] && position == 0
    {
      buffer := [];
      position := 0;
    }

    /** Truncates or zero-extends the buffer; the cursor never stays past the end. */
    method SetLength(n: nat)
      modifies this
      ensures buffer == if n <= |old(buffer)| then old(buffer)[..n] else old(buffer) + Zeros(n - |old(buffer)|)
      ensures position == if old(position) <= n then old(position) else n
    {
      buffer := if n <= |buffer| then buffer[..n] else buffer + Zeros(n - |buffer|);
      if position > n {
        position := n;
      }
    }

    method Write(b: seq<byte>)
      modifies this
      ensures buffer == Overwrite(old(buffer), old(position), b)
      ensures position == old(position) + |b|
    {
      buffer := Overwrite(buffer, position, b);
      position := position + |b|;
    }
  
    /** `Write` at the end of a prefix already written over the bytes
        `reserved`: the prefix grows by `b` and the rest of `reserved` stays. */
    method WriteOver(b: seq<byte>, ghost written: seq<byte>, ghost reserved: seq<byte>)
      returns (ghost written': seq<byte>)
      requires |written| + |b| <= |reserved|
      requires buffer == written + reserved[|written|..] && position == |written|
      modifies this
      ensures written' == written + b && |written'| == |written| + |b|
      ensures buffer == written' + reserved[|written'|..] && position == |written'|
    {
      OverwritePrefix(written, reserved, b);
      Write(b);
      written' := written + b;
    }
  }

  lemma OverwritePrefix(written: seq<byte>, reserved: seq<byte>, b: seq<byte>)
    requires |written| + |b| <= |reserved|
    ensures Overwrite(written + reserved[|written|..], |written|, b) == (written + b) + reserved[|written + b|..]
  {
    var d := written + reserved[|written|..];
    assert d[..|written|] == written;
    assert d[|written| + |b|..] == reserved[|written| + |b|..];
  }
}

=== FILE: wav_format.dfy ===
/**
 * The bit-exact wire format produced by `AudioClipToWav`: a canonical 44-byte
 * RIFF/WAVE PCM header followed by interleaved 16-bit little-endian samples,
 * as defined by the "WAVE Form Definition" of the Multimedia Programming
 * Interface and Data Specifications 1.0.  Everything here is a pure function
 * of the clip; the stateful encoder in module Recorder is proved against it.
 */
module WavFormat {
  import opened Wrappers

  type byte = x: int | 0 <= x < 0x100
  type int16 = x: int | -0x8000 <= x < 0x8000

  const Int32Max: int := 0x7FFF_FFFF

  /** The float-to-short scale used by the encoder (`32767f`). */
  const RescaleFactor: real := 32767.0

  // ---------------------------------------------------------------------
  // Two's-complement integers and their little-endian bytes
  // ---------------------------------------------------------------------

  /** What a C# `(short)` cast leaves of the mathematical value `x`. */
  function Wrap16(x: int): (r: int16)
    ensures -0x8000 <= x < 0x8000 ==> r == x
    ensures (x - r) % 0x1_0000 == 0
  {
    var m := x % 0x1_0000;
    if m < 0x8000 then m else m - 0x1_0000
  }

  /** What a C# `(int)` cast, or unchecked `int` arithmetic, leaves of `x`. */
  function Wrap32(x: int): (r: int)
    ensures -0x8000_0000 <= r < 0x8000_0000
    ensures -0x8000_0000 <= x < 0x8000_0000 ==> r == x
    ensures (x - r) % 0x1_0000_0000 == 0
  {
    var m := x % 0x1_0000_0000;
    if m < 0x8000_0000 then m else m - 0x1_0000_0000
  }

  /** `(byte)(v & 0xFF)`: the low eight bits of a two's-complement value. */
  function LowByte(v: int): (r: byte)
    ensures (v - r) % 0x100 == 0
  {
    v % 0x100
  }

  /** `(byte)((v >> 8) & 0xFF)`: an arithmetic shift is floor division, which
      is Dafny's `/` for a positive divisor. */
  function HighByte(v: int): (r: byte)
    ensures LowByte(v) + 0x100 * r == v % 0x1_0000
  {
    (v / 0x100) % 0x100
  }

  /** `BitConverter.GetBytes` of a `short` on a little-endian platform. */
  function Int16Bytes(v: int16): (r: seq<byte>)
    ensures |r| == 2
  {
    [LowByte(v), HighByte(v)]
  }

  /** `BitConverter.GetBytes` of an `int` on a little-endian platform. */
  function Int32Bytes(v: int): (r: seq<byte>)
    requires -0x8000_0000 <= v < 0x8000_0000
    ensures |r| == 4
  {
    [v % 0x100, (v / 0x100) % 0x100, (v / 0x1_0000) % 0x100, (v / 0x100_0000) % 0x100]
  }

  function ReadUInt16(b: seq<byte>, at: nat): (r: nat)
    requires at + 2 <= |b|
    ensures r < 0x1_0000
  {
    b[at] as int + 0x100 * b[at + 1] as int
  }

  /** Reads two bytes as a signed little-endian 16-bit value. */
  function ReadInt16(b: seq<byte>, at: nat): int16
    requires at + 2 <= |b|
  {
    var u := ReadUInt16(b, at);
    if u < 0x8000 then u else u - 0x1_0000
  }

  /** Reads four bytes as a signed little-endian 32-bit value. */
  function ReadInt32(b: seq<byte>, at: nat): (r: int)
    requires at + 4 <= |b|
    ensures -0x8000_0000 <= r < 0x8000_0000
  {
    var u := b[at] as int + 0x100 * b[at + 1] as int + 0x1_0000 * b[at + 2] as int + 0x100_0000 * b[at + 3] as int;
    if u < 0x8000_0000 then u else u - 0x1_0000_0000
  }

  lemma Int16RoundTrip(v: int16)
    ensures ReadInt16(Int16Bytes(v), 0) == v
    ensures ReadUInt16(Int16Bytes(v), 0) == v % 0x1_0000
  {
    var q := v / 0x100;
    assert v == 0x100 * q + v % 0x100;
    assert -0x80 <= q < 0x80;
  }

  lemma Int32RoundTrip(v: int)
    requires -0x8000_0000 <= v < 0x8000_0000
    ensures ReadInt32(Int32Bytes(v), 0) == v
  {
    var q1 := v / 0x100;
    var q2 := q1 / 0x100;
    var q3 := q2 / 0x100;
    assert v == 0x100 * q1 + v % 0x100;
    assert q1 == 0x100 * q2 + q1 % 0x100;
    assert q2 == 0x100 * q3 + q2 % 0x100;
    assert v / 0x1_0000 == q2;
    assert v / 0x100_0000 == q3;
    assert -0x80 <= q3 < 0x80;
  }

  // ---------------------------------------------------------------------
  // Samples: quantisation and silence
  // ---------------------------------------------------------------------

  function Abs(x: real): (r: real)
    ensures r >= 0.0 && (r == x || r == -x)
  {
    if x < 0.0 then -x else x
  }

  /** Truncation toward zero, the rounding of a C# float-to-integer cast. */
  function Trunc(x: real): (r: int)
    ensures Abs(r as real) <= Abs(x)
    ensures Abs(x - r as real) < 1.0
    ensures x >= 0.0 ==> r >= 0
    ensures x <= 0.0 ==> r <= 0
  {
    if x >= 0.0 then x.Floor else -((-x).Floor)
  }

  /** Every sample lies in the normalised range [-1, 1]. */
  ghost predicate InRange(samples: seq<real>)
  {
    forall i :: 0 <= i < |samples| ==> -1.0 <= samples[i] <= 1.0
  }

  /** `(short)(sample * 32767f)` for a sample in [-1, 1]. */
  function Quantize(s: real): (r: int16)
    requires -1.0 <= s <= 1.0
    ensures -32767 <= r <= 32767
  {
    Trunc(s * RescaleFactor)
  }

  /** Scaled back to a float, a quantised sample is within one step of the original. */
  lemma QuantizeError(s: real)
    requires -1.0 <= s <= 1.0
    ensures Abs(Quantize(s) as real / RescaleFactor - s) < 1.0 / RescaleFactor
  {
    var x := s * RescaleFactor;
    var d := Quantize(s) as real - x;
    assert Abs(d) < 1.0;
    assert Quantize(s) as real / RescaleFactor - s == d / RescaleFactor;
  }

  /** The two bytes the encoder writes for one sample, low byte first. */
  function SampleBytes(s: real): (r: seq<byte>)
    requires -1.0 <= s <= 1.0
    ensures |r| == 2
  {
    var v := Quantize(s);
    [LowByte(v), HighByte(v)]
  }

  /** The PCM payload: every sample's two bytes, in sample order. */
  function PcmBytes(samples: seq<real>): (r: seq<byte>)
    requires InRange(samples)
    decreases |samples|
  {
    if samples == [] then [] else SampleBytes(samples[0]) + PcmBytes(samples[1..])
  }

  function Quantized(samples: seq<real>): (r: seq<int16>)
    requires InRange(samples)
    ensures |r| == |samples|
    ensures forall i :: 0 <= i < |samples| ==> r[i] == Quantize(samples[i])
  {
    seq(|samples|, i requires 0 <= i < |samples| => Quantize(samples[i]))
  }

  /** Sample `i` occupies bytes `2i` (low) and `2i + 1` (high) of the payload,
      and the pair reads back as the same 16-bit value. */
  lemma {:induction false} PcmBytesAt(samples: seq<real>, i: nat)
    requires InRange(samples) && i < |samples|
    ensures |PcmBytes(samples)| == 2 * |samples|
    ensures PcmBytes(samples)[2 * i] == LowByte(Quantize(samples[i]))
    ensures PcmBytes(samples)[2 * i + 1] == HighByte(Quantize(samples[i]))
    ensures ReadInt16(PcmBytes(samples), 2 * i) == Quantize(samples[i])
    decreases |samples|
  {
    Int16RoundTrip(Quantize(samples[i]));
    if i > 0 {
      PcmBytesAt(samples[1..], i - 1);
    } else if |samples| > 1 {
      PcmBytesAt(samples[1..], 0);
    }
  }

  lemma {:induction false} PcmBytesLength(samples: seq<real>)
    requires InRange(samples)
    ensures |PcmBytes(samples)| == 2 * |samples|
    decreases |samples|
  {
    if samples != [] {
      PcmBytesLength(samples[1..]);
    }
  }

  /** The `isSilent` flag: no sample's magnitude strictly exceeds the threshold. */
  ghost predicate IsSilent(samples: seq<real>, threshold: real)
  {
    forall i :: 0 <= i < |samples| ==> Abs(samples[i]) <= threshold
  }

  /** Peak absolute amplitude, an independent reference for the silence flag. */
  function PeakAbs(samples: seq<real>): (r: real)
    ensures r >= 0.0
    decreases |samples|
  {
    if samples == [] then 0.0
    else
      var rest := PeakAbs(samples[1..]);
      if Abs(samples[0]) > rest then Abs(samples[0]) else rest
  }

  /** For a non-negative threshold, a clip is silent exactly when its peak
      amplitude does not exceed the threshold. */
  lemma {:induction false} SilentIffPeakWithin(samples: seq<real>, threshold: real)
    requires threshold >= 0.0
    ensures IsSilent(samples, threshold) <==> PeakAbs(samples) <= threshold
    decreases |samples|
  {
    if samples != [] {
      SilentIffPeakWithin(samples[1..], threshold);
      assert forall i :: 1 <= i < |samples| ==> samples[i] == samples[1..][i - 1];
      if !IsSilent(samples[1..], threshold) {
        var j :| 0 <= j < |samples[1..]| && Abs(samples[1..][j]) > threshold;
        assert Abs(samples[j + 1]) > threshold;
      }
    }
  }

  /** Byte `k` of the PCM payload: the low or the high byte of sample `k / 2`. */
  function PcmByte(samples: seq<real>, k: nat): byte
    requires InRange(samples) && k < 2 * |samples|
  {
    var v := Quantize(samples[k / 2]);
    if k % 2 == 0 then LowByte(v) else HighByte(v)
  }

  lemma PcmBytesEach(samples: seq<real>)
    requires InRange(samples)
    ensures |PcmBytes(samples)| == 2 * |samples|
    ensures forall k :: 0 <= k < 2 * |samples| ==> PcmBytes(samples)[k] == PcmByte(samples, k)
  {
    PcmBytesLength(samples);
    forall k | 0 <= k < 2 * |samples|
      ensures PcmBytes(samples)[k] == PcmByte(samples, k)
    {
      PcmBytesAt(samples, k / 2);
    }
  }

  // ---------------------------------------------------------------------
  // The header and the whole file
  // ---------------------------------------------------------------------

  /** `Encoding.UTF8.GetBytes` of an ASCII tag. */
  function Ascii(s: string): (r: seq<byte>)
    requires forall i :: 0 <= i < |s| ==> s[i] as int < 0x80
    ensures |r| == |s|
    ensures forall i :: 0 <= i < |s| ==> r[i] == s[i] as int
  {
    seq(|s|, i requires 0 <= i < |s| => s[i] as int)
  }

  /** The four chunk tags of a canonical WAV file. */
  const RiffTag: seq<byte> := Ascii("RIFF")
  const WaveTag: seq<byte> := Ascii("WAVE")
  const FmtTag: seq<byte> := Ascii("fmt ")
  const DataTag: seq<byte> := Ascii("data")

  /** The 44 header bytes `WriteWavHeader` writes: `riffSize` is the stream
      length less eight, and every field passes through the C# cast the source
      applies to it before `BitConverter.GetBytes`. */
  function WavHeader(riffSize: int, channels: int, frequency: int, dataLength: int): (r: seq<byte>)
    ensures |r| == 44
  {
    RiffTag + Int32Bytes(Wrap32(riffSize)) + WaveTag
    + FmtTag + Int32Bytes(16) + Int16Bytes(1)
    + Int16Bytes(Wrap16(channels)) + Int32Bytes(Wrap32(frequency))
    + Int32Bytes(Wrap32(frequency * channels * 2)) + Int16Bytes(Wrap16(channels * 2))
    + Int16Bytes(16)
    + DataTag + Int32Bytes(Wrap32(dataLength))
  }

  lemma ReadsOfSlice(b: seq<byte>, at: nat, w: seq<byte>)
    requires at + |w| <= |b| && b[at..at + |w|] == w
    ensures |w| >= 2 ==> ReadInt16(b, at) == ReadInt16(w, 0) && ReadUInt16(b, at) == ReadUInt16(w, 0)
    ensures |w| >= 4 ==> ReadInt32(b, at) == ReadInt32(w, 0)
  {
    assert forall k :: 0 <= k < |w| ==> b[at + k] == w[k];
  }

  /** A little-endian 32-bit field at `at` reads back as the value written there. */
  lemma Int32FieldAt(b: seq<byte>, at: nat, v: int)
    requires -0x8000_0000 <= v < 0x8000_0000
    requires at + 4 <= |b| && b[at..at + 4] == Int32Bytes(v)
    ensures ReadInt32(b, at) == v
  {
    ReadsOfSlice(b, at, Int32Bytes(v));
    Int32RoundTrip(v);
  }

  /** A little-endian 16-bit field at `at` reads back as the value written
      there, signed or unsigned. */
  lemma Int16FieldAt(b: seq<byte>, at: nat, v: int16)
    requires at + 2 <= |b| && b[at..at + 2] == Int16Bytes(v)
    ensures ReadInt16(b, at) == v && ReadUInt16(b, at) == v % 0x1_0000
  {
    ReadsOfSlice(b, at, Int16Bytes(v));
    Int16RoundTrip(v);
  }

  /** Where each of the thirteen header fields sits in the 44 bytes. */
  lemma {:induction false} HeaderSlices(b: seq<byte>, riffSize: int, channels: int, frequency: int, dataLength: int)
    requires |b| >= 44 && b[..44] == WavHeader(riffSize, channels, frequency, dataLength)
    ensures b[0..4] == RiffTag && b[4..8] == Int32Bytes(Wrap32(riffSize)) && b[8..12] == WaveTag
    ensures b[12..16] == FmtTag && b[16..20] == Int32Bytes(16) && b[20..22] == Int16Bytes(1)
    ensures b[22..24] == Int16Bytes(Wrap16(channels)) && b[24..28] == Int32Bytes(Wrap32(frequency))
    ensures b[28..32] == Int32Bytes(Wrap32(frequency * channels * 2))
    ensures b[32..34] == Int16Bytes(Wrap16(channels * 2)) && b[34..36] == Int16Bytes(16)
    ensures b[36..40] == DataTag && b[40..44] == Int32Bytes(Wrap32(dataLength))
  {
    var riff, size, wave := RiffTag, Int32Bytes(Wrap32(riffSize)), WaveTag;
    var fmt, fmtSize, format := FmtTag, Int32Bytes(16), Int16Bytes(1);
    var ch, rate := Int16Bytes(Wrap16(channels)), Int32Bytes(Wrap32(frequency));
    var byteRate, align := Int32Bytes(Wrap32(frequency * channels * 2)), Int16Bytes(Wrap16(channels * 2));
    var bits, data, len := Int16Bytes(16), DataTag, Int32Bytes(Wrap32(dataLength));
    var h := b[..44];
    assert h == riff + size + wave + fmt + fmtSize + format + ch + rate + byteRate + align + bits + data + len;
    assert b[0..4] == h[0..4] == riff;
    assert b[4..8] == h[4..8] == size;
    assert b[8..12] == h[8..12] == wave;
    assert b[12..16] == h[12..16] == fmt;
    assert b[16..20] == h[16..20] == fmtSize;
    assert b[20..22] == h[20..22] == format;
    assert b[22..24] == h[22..24] == ch;
    assert b[24..28] == h[24..28] == rate;
    assert b[28..32] == h[28..32] == byteRate;
    assert b[32..34] == h[32..34] == align;
    assert b[34..36] == h[34..36] == bits;
    assert b[36..40] == h[36..40] == data;
    assert b[40..44] == h[40..44] == len;
  }

  /** Field by field, a buffer that starts with `WavHeader(...)` carries the
      canonical PCM header: the four tags, a 16-byte fmt chunk of format 1
      with 16 bits per sample, block align `channels * 2`, byte rate
      `frequency * channels * 2`, and the RIFF and data lengths, each as the
      source's casts leave it. */
  lemma {:induction false} HeaderFieldsAt(b: seq<byte>, riffSize: int, channels: int, frequency: int, dataLength: int)
    requires |b| >= 44 && b[..44] == WavHeader(riffSize, channels, frequency, dataLength)
    ensures b[0..4] == RiffTag && b[8..12] == WaveTag
    ensures b[12..16] == FmtTag && b[36..40] == DataTag
    ensures ReadInt32(b, 4) == Wrap32(riffSize)
    ensures ReadInt32(b, 16) == 16
    ensures ReadInt16(b, 20) == 1
    ensures ReadInt16(b, 22) == Wrap16(channels) && ReadUInt16(b, 22) == channels % 0x1_0000
    ensures ReadInt32(b, 24) == Wrap32(frequency)
    ensures ReadInt32(b, 28) == Wrap32(frequency * channels * 2)
    ensures ReadInt16(b, 32) == Wrap16(channels * 2) && ReadUInt16(b, 32) == (channels * 2) % 0x1_0000
    ensures ReadInt16(b, 34) == 16
    ensures ReadInt32(b, 40) == Wrap32(dataLength)
  {
    HeaderSlices(b, riffSize, channels, frequency, dataLength);
    Int32FieldAt(b, 4, Wrap32(riffSize));
    Int32FieldAt(b, 16, 16);
    Int16FieldAt(b, 20, 1);
    Int16FieldAt(b, 22, Wrap16(channels));
    Int32FieldAt(b, 24, Wrap32(frequency));
    Int32FieldAt(b, 28, Wrap32(frequency * channels * 2));
    Int16FieldAt(b, 32, Wrap16(channels * 2));
    Int16FieldAt(b, 34, 16);
    Int32FieldAt(b, 40, Wrap32(dataLength));
  }

  /** A Unity `AudioClip` as the encoder sees it: `samples` frames of
      `channels` interleaved samples each, recorded at `frequency` Hz; `data`
      is what `GetData` copies out. */
  datatype AudioClip = AudioClip(samples: int, channels: int, frequency: int, data: seq<real>)

  /** The engine's own invariant: `GetData` yields `samples * channels`
      interleaved values. */
  ghost predicate WellShaped(clip: AudioClip)
  {
    clip.samples >= 0 && clip.channels >= 0 && |clip.data| == clip.samples * clip.channels
  }

  /** What the encoder needs of the samples: all in [-1, 1] (outside it the
      short cast is unspecified), and few enough for a .NET byte array and
      the header's `int` length fields. */
  ghost predicate Encodable(clip: AudioClip)
  {
    InRange(clip.data) && 44 + 2 * |clip.data| <= Int32Max
  }

  /** The WAV file for a clip: header over the PCM payload. */
  function EncodeWav(clip: AudioClip): (r: seq<byte>)
    requires Encodable(clip)
    ensures |r| == 44 + 2 * |clip.data|
    ensures r[44..] == PcmBytes(clip.data)
  {
    PcmBytesLength(clip.data);
    var dataLength := 2 * |clip.data|;
    WavHeader(44 + dataLength - 8, clip.channels, clip.frequency, dataLength) + PcmBytes(clip.data)
  }

  /** The file is the 44-byte header plus two bytes per sample, and the RIFF
      size field holds the file length less eight (36 + data length). */
  lemma EncodeWavLength(clip: AudioClip)
    requires Encodable(clip)
    ensures |EncodeWav(clip)| == 44 + 2 * |clip.data|
    ensures WellShaped(clip) ==> |EncodeWav(clip)| == 44 + 2 * (clip.samples * clip.channels)
    ensures ReadInt32(EncodeWav(clip), 4) == |EncodeWav(clip)| - 8 == 36 + 2 * |clip.data|
  {
    PcmBytesLength(clip.data);
    var dataLength := 2 * |clip.data|;
    var h := WavHeader(44 + dataLength - 8, clip.channels, clip.frequency, dataLength);
    var b := EncodeWav(clip);
    assert b == h + PcmBytes(clip.data);
    assert b[..44] == h;
    assert ReadInt32(b, 4) == 36 + dataLength by {
      HeaderFieldsAt(b, 44 + dataLength - 8, clip.channels, clip.frequency, dataLength);
    }
  }

  /** After the 44 header bytes comes the PCM payload and nothing else. */
  lemma EncodeWavPayload(clip: AudioClip)
    requires Encodable(clip)
    ensures |EncodeWav(clip)| >= 44 && EncodeWav(clip)[44..] == PcmBytes(clip.data)
  {
  }

  /** The header of an encoded clip: tags, the 16-byte PCM fmt chunk of
      format 1 and 16 bits, the clip's channel count and frequency, byte rate
      `frequency * channels * 2`, block align `channels * 2` and the data
      length, each as the source's `short`/`int` casts leave it. */
  lemma EncodeWavHeader(clip: AudioClip)
    requires Encodable(clip)
    ensures var b := EncodeWav(clip);
      && b[0..4] == RiffTag && b[8..12] == WaveTag
      && b[12..16] == FmtTag && b[36..40] == DataTag
      && ReadInt32(b, 16) == 16 && ReadInt16(b, 20) == 1 && ReadInt16(b, 34) == 16
      && ReadInt16(b, 22) == Wrap16(clip.channels) && ReadUInt16(b, 22) == clip.channels % 0x1_0000
      && ReadInt32(b, 24) == Wrap32(clip.frequency)
      && ReadInt32(b, 28) == Wrap32(clip.frequency * clip.channels * 2)
      && ReadInt16(b, 32) == Wrap16(clip.channels * 2) && ReadUInt16(b, 32) == (clip.channels * 2) % 0x1_0000
      && ReadInt32(b, 40) == 2 * |clip.data|
  {
    var dataLength := 2 * |clip.data|;
    var h := WavHeader(44 + dataLength - 8, clip.channels, clip.frequency, dataLength);
    var b := EncodeWav(clip);
    assert b[..44] == h;
    HeaderFieldsAt(b, 44 + dataLength - 8, clip.channels, clip.frequency, dataLength);
  }

  /** Sample `i` of the clip sits at bytes `44 + 2i` (low) and `45 + 2i` (high)
      and reads back as the truncated 16-bit value of `sample * 32767`. */
  lemma EncodeWavSampleAt(clip: AudioClip, i: nat)
    requires Encodable(clip) && i < |clip.data|
    ensures 45 + 2 * i < |EncodeWav(clip)|
    ensures EncodeWav(clip)[44 + 2 * i] == LowByte(Quantize(clip.data[i]))
    ensures EncodeWav(clip)[45 + 2 * i] == HighByte(Quantize(clip.data[i]))
    ensures ReadInt16(EncodeWav(clip), 44 + 2 * i) == Quantize(clip.data[i]) == Trunc(clip.data[i] * 32767.0)
  {
    PcmBytesAt(clip.data, i);
    var p := PcmBytes(clip.data);
    var b := EncodeWav(clip);
    assert b[44..] == p;
    assert b[44 + 2 * i] == p[2 * i] && b[45 + 2 * i] == p[2 * i + 1];
  }

  /** Reads a PCM payload back as signed little-endian 16-bit samples. */
  function DecodePcm(b: seq<byte>): (r: seq<int16>)
    requires |b| % 2 == 0
    ensures |r| == |b| / 2
    decreases |b|
  {
    if b == [] then [] else [ReadInt16(b, 0)] + DecodePcm(b[2..])
  }

  lemma {:induction false} PcmRoundTrip(samples: seq<real>)
    requires InRange(samples)
    ensures |PcmBytes(samples)| % 2 == 0
    ensures DecodePcm(PcmBytes(samples)) == Quantized(samples)
    decreases |samples|
  {
    PcmBytesLength(samples);
    if samples != [] {
      PcmRoundTrip(samples[1..]);
      var b := PcmBytes(samples);
      assert b[2..] == PcmBytes(samples[1..]);
      Int16RoundTrip(Quantize(samples[0]));
      assert b[..2] == Int16Bytes(Quantize(samples[0]));
      ReadsOfSlice(b, 0, Int16Bytes(Quantize(samples[0])));
    }
  }

  /** What a reader of a canonical 16-bit PCM WAV file recovers. */
  datatype WavInfo = WavInfo(channels: int, sampleRate: int, samples: seq<int16>)

  /** A reader for the canonical 44-byte-header, 16-bit PCM layout: it checks
      every tag and every fixed or derived field and returns the channel
      count, sample rate and samples, or None for any other byte string. */
  function DecodeWav(b: seq<byte>): (r: Option<WavInfo>)
    ensures r.Some? ==> 44 <= |b| && |r.value.samples| == (|b| - 44) / 2
  {
    if |b| < 44 || (|b| - 44) % 2 != 0 then None
    else if b[0..4] != RiffTag || ReadInt32(b, 4) != |b| - 8 || b[8..12] != WaveTag
         || b[12..16] != FmtTag || ReadInt32(b, 16) != 16 || ReadInt16(b, 20) != 1
         || ReadInt16(b, 34) != 16 || b[36..40] != DataTag || ReadInt32(b, 40) != |b| - 44
    then None
    else
      var channels := ReadUInt16(b, 22);
      var rate := ReadInt32(b, 24);
      if ReadInt32(b, 28) != rate * channels * 2 || ReadUInt16(b, 32) != channels * 2 then None
      else Some(WavInfo(channels, rate, DecodePcm(b[44..])))
  }

  /** Channel count, frequency and byte rate that fit their header slots
      pass through the source's casts unchanged. */
  lemma FieldsFit(frequency: int, channels: int)
    requires 0 <= channels < 0x8000 && 0 <= frequency <= Int32Max
    requires frequency * channels * 2 <= Int32Max
    ensures channels % 0x1_0000 == channels && (channels * 2) % 0x1_0000 == channels * 2
    ensures Wrap32(frequency) == frequency
    ensures Wrap32(frequency * channels * 2) == frequency * channels * 2
  {
    NonNegativeProduct(frequency, channels);
  }

  lemma NonNegativeProduct(x: int, y: int)
    requires 0 <= x && 0 <= y
    ensures 0 <= x * y
  {
  }

  /** For a clip whose fields fit their header slots, every header field of
      the encoded file holds the clip's own value exactly. */
  lemma EncodeWavHeaderExact(clip: AudioClip)
    requires Encodable(clip)
    requires 0 <= clip.channels < 0x8000 && 0 <= clip.frequency <= Int32Max
    requires clip.frequency * clip.channels * 2 <= Int32Max
    ensures var b := EncodeWav(clip);
      && |b| == 44 + 2 * |clip.data|
      && b[0..4] == RiffTag && ReadInt32(b, 4) == |b| - 8 && b[8..12] == WaveTag
      && b[12..16] == FmtTag && ReadInt32(b, 16) == 16 && ReadInt16(b, 20) == 1
      && ReadUInt16(b, 22) == clip.channels && ReadInt32(b, 24) == clip.frequency
      && ReadInt32(b, 28) == clip.frequency * clip.channels * 2
      && ReadUInt16(b, 32) == clip.channels * 2 && ReadInt16(b, 34) == 16
      && b[36..40] == DataTag && ReadInt32(b, 40) == |b| - 44
      && b[44..] == PcmBytes(clip.data)
  {
    var b := EncodeWav(clip);
    EncodeWavLength(clip);
    EncodeWavPayload(clip);
    EncodeWavHeader(clip);
    FieldsFit(clip.frequency, clip.channels);
  }

  /** Round trip: for a clip whose channel count, frequency and byte rate fit
      their header fields, reading the encoded file gives back the clip's
      channel count, frequency and quantised samples. */
  lemma EncodeDecodeRoundTrip(clip: AudioClip)
    requires Encodable(clip)
    requires 0 <= clip.channels < 0x8000 && 0 <= clip.frequency <= Int32Max
    requires clip.frequency * clip.channels * 2 <= Int32Max
    ensures DecodeWav(EncodeWav(clip)) == Some(WavInfo(clip.channels, clip.frequency, Quantized(clip.data)))
  {
    var b := EncodeWav(clip);
    EncodeWavHeaderExact(clip);
    PcmRoundTrip(clip.data);
    assert DecodePcm(b[44..]) == Quantized(clip.data);
  }
}

=== FILE: wrappers.dfy ===
/** Failure-compatible wrappers used across the model: `Option` for values the
    C# code may leave null, `Result` for operations that throw. */
module Wrappers {

  datatype Option<+T> = None | Some(value: T)

  datatype Result<+T, +E> = Success(value: T) | Failure(error: E)
}
